=== FILE: README.md ===
# Leaguerly standings engine in Dafny

This project models the standings engine of Leaguerly, a small league-management
web API. The engine takes a list of completed games and builds the league table.

1. `Game` derives each side's score from its goal records. A goal counts for every
   team the scoring player belongs to.
2. `Standing.GetStandings` aggregates, for each distinct team in the games, the
   games flagged `IncludeInStandings`. The aggregate holds wins, losses, ties,
   forfeits, games played, goals for and goals against. Points are
   `3*wins + ties - forfeits`.
3. `Standing.Sort` orders the table by points and breaks ties group by group:
   - a group of one is emitted as is;
   - a group of more than two is ordered by `LastSort`;
   - a pair is ordered by `LastSort` over the standings of the games played
     between the two teams (their head-to-head games), then mapped back to the
     full-season standings.

   `LastSort` is a stable sort by points, then goal differential, then a third
   key that looks up the same team's goal differential again.

## Modules

- `Wrappers` (wrappers.dfy): `Option`.
- `Games` (games.dfy): goals, games and per-team scores.
- `Scores` (scores.dfy): the result of a game: winner, loser, tie.
- `Sorting` (sorting.dfy): a stable descending sort on a three-part key. This is
  the model of LINQ `OrderByDescending(...).ThenByDescending(...)`.
- `Standings` (standings.dfy): the `Standing` record and `GetStandings`.
- `StandingsFacts` (standings_facts.dfy): properties of `GetStandings`.
- `TieBreak` (tiebreak.dfy): `Sort`, `LastSort` and `CalculateStandings`.
- `TieBreakFacts` (tiebreak_facts.dfy): properties of `LastSort` and of pair
  resolution.
- `TableFacts` (table_facts.dfy): properties of the whole league table.
- `Scenarios` (scenarios.dfy): single-game leagues worked end to end.

Teams are represented by their integer ids. A game's `HomeTeamId` and
`HomeTeam.Id` are one field here, and likewise for the away side. A goal carries
the set of team ids of its scoring player.

### The head-to-head fallback

A tied pair falls back to its own full-season standings only when the two teams
never met (Leaguerly.Api/Models/Standing.cs:80-89).

- The code tests `GetStandings(headToHeadGames).Any()`.
- `GetStandings` lists every team that plays in a game, counted or not.
- So the aggregate is empty only when there is no game between the two at all.
- If they met only in games excluded from standings, and neither team played
  itself in any game, their head-to-head records are all zero. `LastSort` then
  leaves them in the order of the first such game: its home team, then its away
  team. A counted game of one of them against itself would give that team a
  tie in the head-to-head records.

`TieBreakFacts.UncountedMeetingsKeepFirstMeetingOrder` proves this ordering.

## Model

A self-game is a game that lists the same team as both home and away.

| member | source | states |
|---|---|---|
| Games.GoalsFor | Leaguerly.Api/Models/Game.cs:47-50 | the goals kept are exactly those whose player belongs to the team, none added |
| Games.GoalsForMultiplicity | Leaguerly.Api/Models/Game.cs:47-50 | each goal record that belongs to the team is kept as many times as the collection holds it, and every other record not at all |
| Games.ScoreSign | Leaguerly.Api/Models/Game.cs:46-52 | a side that no goal record belongs to scores 0; when no tally is negative, no score is negative |
| Games.NewGame | Leaguerly.Api/Models/Game.cs:36-44 | a new game has an empty goal collection, so every team's score in it is 0 |
| Games.TeamScoreIsSumOfContributions | Leaguerly.Api/Models/Game.cs:46-52 | a team's score is the sum over all goal records of the count of those that belong to it |
| Games.TeamScoreConcat | Leaguerly.Api/Models/Game.cs:46-52 | the score over two goal collections together is the sum of the scores over each |
| Games.AddGoalScore | Leaguerly.Api/Models/Game.cs:46-52 | adding a goal raises a team's score by the goal's count exactly when the scorer belongs to the team, and leaves it unchanged otherwise |
| Games.UnaffiliatedGoalIsInert | Leaguerly.Api/Models/Game.cs:17-22 | a goal whose player belongs to neither side changes neither side's score |
| Games.SharedGoalCountsForBoth | Leaguerly.Api/Models/Game.cs:17-22 | a goal whose player belongs to both sides counts for both |
| Games.TeamScoreIgnoresOrder | Leaguerly.Api/Models/Game.cs:46-52 | the score depends only on the goal collection as a multiset, not on its order |
| Games.ConsistentGameScoreTotal | Leaguerly.Api/Models/Game.cs:17-22 | if each goal belongs to exactly one of two distinct sides, home score plus away score is the total of all goal counts |
| Scores.GetScore | Leaguerly.Api/Models/Standing.cs:37-43 | the scores are the game's two side scores; it is a tie iff they are equal iff there is no winner iff there is no loser; the home team wins iff it scored more, the away team wins iff it scored more, and the loser is the other side |
| Scores.ResultIgnoresVenue | Leaguerly.Api/Models/Standing.cs:40-42 | swapping home and away swaps the two scores and keeps the winner, the loser and the tie flag |
| Sorting.SortBy | Leaguerly.Api/Models/Standing.cs:104-110 | the result is a permutation of the input |
| Sorting.SortByOrdered | Leaguerly.Api/Models/Standing.cs:104-110 | in the sorted sequence no element ranks strictly above an element placed before it |
| Sorting.SortByIsStable | Leaguerly.Api/Models/Standing.cs:104-110 | for every key value, the elements with that key keep their input order |
| Sorting.SortByAllTied | Leaguerly.Api/Models/Standing.cs:104-110 | a sequence whose elements all share one key comes out unchanged |
| Sorting.SortBySameOrder | Leaguerly.Api/Models/Standing.cs:104-110 | two keys that rank the elements the same way give the same sorted sequence |
| Standings.Dedupe | Leaguerly.Api/Models/Standing.cs:28-30 | the result has no duplicates, has the same members as the input, and starts with the input's first value |
| Standings.DedupeKeepsFirstOccurrenceOrder | Leaguerly.Api/Models/Standing.cs:28-30 | the distinct values come out ordered by the position of their first occurrence in the input |
| Standings.TeamsAreAppearances | Leaguerly.Api/Models/Standing.cs:28-30 | a team is listed iff it plays home or away in some game, counted or not |
| Standings.FirstTeamIsFirstHome | Leaguerly.Api/Models/Standing.cs:28-30 | the first team listed is the home team of the first game |
| Standings.GameRecordMatchesScore | Leaguerly.Api/Models/Standing.cs:37-52 | for a team in the game, one game adds one game played under the team's id and is exactly one of a win, a loss or a tie: a win iff its goals for exceed its goals against, a loss iff they fall short, a tie iff equal; it is charged a forfeit iff the game was forfeited by this team; its goals for are its own score and its goals against the other side's |
| Standings.TallyKeepsTeam | Leaguerly.Api/Models/Standing.cs:37-52 | the aggregate keeps the team's id, counts one game played per game tallied, and never more forfeits than games tallied |
| Standings.GetStandings | Leaguerly.Api/Models/Standing.cs:27-56 | one standing per listed team, in listing order, each that team's aggregate over its counted games; no team appears twice |
| Standings.StandingListedIffAppears | Leaguerly.Api/Models/Standing.cs:27-53 | a team has a standing iff it plays in some game, even one excluded from standings |
| Standings.EmptyIffNoGames | Leaguerly.Api/Models/Standing.cs:27-56 | the standings are empty iff there are no games |
| StandingsFacts.TallyConcat | Leaguerly.Api/Models/Standing.cs:37-52 | a team's aggregate over two game lists is the field-wise sum of its aggregates over each |
| StandingsFacts.ExcludedGameIsInert | Leaguerly.Api/Models/Standing.cs:33-36 | inserting a game not flagged for standings changes no team's aggregate |
| StandingsFacts.ExcludedGameChangesNoStanding | Leaguerly.Api/Models/Standing.cs:28-36 | after adding an excluded game, every standing equals the one computed without it; a team that plays only in that game gets an all-zero standing; both of its teams are listed |
| StandingsFacts.NoCountedGamesGivesZero | Leaguerly.Api/Models/Standing.cs:33-52 | a team with no counted game has an all-zero standing |
| StandingsFacts.ResultsAddUp | Leaguerly.Api/Models/Standing.cs:40-44 | wins + losses + ties equals games played, forfeits never exceed games played, and games played is the number of the team's counted games |
| StandingsFacts.PointsBounds | Leaguerly.Api/Models/Standing.cs:16 | points lie between minus the games played and three times the games played |
| StandingsFacts.GoalsBalanceOver | Leaguerly.Api/Models/Standing.cs:45-52 | over any list of distinct teams that covers both sides of every game, total goals for and total goals against both equal the goals of all counted games, when no game is a self-game |
| StandingsFacts.GoalsBalance | Leaguerly.Api/Models/Standing.cs:45-52 | across the table, total goals for and total goals against both equal the goals of all counted games, when no game is a self-game |
| StandingsFacts.GameDifferentialOverTeams | Leaguerly.Api/Models/Standing.cs:45-52 | over distinct teams, a counted game adds the home margin for a listed home team and the away margin for a listed away team to goals for minus goals against, and nothing when excluded; a self-game adds zero |
| StandingsFacts.DifferentialsVanishOver | Leaguerly.Api/Models/Standing.cs:45-52 | over distinct teams covering every game, total goals for equal total goals against, self-games included |
| StandingsFacts.GoalDifferentialsSumToZero | Leaguerly.Api/Models/Standing.cs:17 | the goal differentials of the whole table sum to zero, self-games included |
| TieBreak.Lookup | Leaguerly.Api/Models/Standing.cs:95 | a found standing is in the list and has the team; not found means no standing in the list has the team |
| TieBreak.LastSort | Leaguerly.Api/Models/Standing.cs:103-111 | the result is a permutation of the input |
| TieBreak.HeadToHeadGames | Leaguerly.Api/Models/Standing.cs:80-85 | a game is kept iff it is one of the games and both its home and its away team are among the tied teams |
| TieBreak.HeadToHeadGamesMultiplicity | Leaguerly.Api/Models/Standing.cs:80-85 | every game between teams of the group is kept as many times as the input holds it, and every other game not at all |
| TieBreak.HeadToHeadFirstIsFirstMeeting | Leaguerly.Api/Models/Standing.cs:80-85 | the first head-to-head game is the first game of the input, in input order, whose two teams are both among the tied teams |
| TieBreak.HeadToHeadGamesAreBetween | Leaguerly.Api/Models/Standing.cs:80-85 | every team playing in a head-to-head game is one of the tied teams |
| TieBreak.MapBack | Leaguerly.Api/Models/Standing.cs:93-97 | each output standing comes from the full-season list and belongs to the team at the same position of the resolved order |
| TieBreak.HeadToHeadPair | Leaguerly.Api/Models/Standing.cs:79-89 | every standing of the pair used for resolution belongs to one of the two tied teams |
| TieBreak.WithPoints | Leaguerly.Api/Models/Standing.cs:61-65 | the points group holds exactly the input standings with those points |
| TieBreak.WithPointsIsKeyGroup | Leaguerly.Api/Models/Standing.cs:61-65 | the points group is the selection, in input order, of the standings whose points key has that value |
| TieBreak.WithoutPoints | Leaguerly.Api/Models/Standing.cs:61-65 | the remainder holds exactly the input standings with other points |
| TieBreak.ResolvePair | Leaguerly.Api/Models/Standing.cs:79-97 | a tied pair is emitted as at least one standing, each a full-season standing of one of the two teams |
| TieBreak.ResolveGroup | Leaguerly.Api/Models/Standing.cs:66-97 | a group emits at least one standing, each from the full-season list; a group of one or of more than two is emitted as a permutation of itself |
| TieBreak.SortGroups | Leaguerly.Api/Models/Standing.cs:65-98 | every emitted standing comes from the full-season list, and a non-empty table emits something |
| TieBreak.Sort | Leaguerly.Api/Models/Standing.cs:58-101 | every row of the sorted table is one of the input standings, and the table is empty iff the input is |
| TieBreak.CalculateStandings | Leaguerly.Api/Models/Standing.cs:21-25 | every row of the table is one of the standings of the games, and the table is empty iff there are no games |
| TieBreakFacts.LookupFindsListed | Leaguerly.Api/Models/Standing.cs:95 | with one standing per team, looking up a listed standing's team finds that standing |
| TieBreakFacts.LastSortIsPointsThenGoalDifferential | Leaguerly.Api/Models/Standing.cs:103-111 | with one standing per team, the third key repeats the second, so the sort equals a sort by points and goal differential alone |
| TieBreakFacts.LastSortOrder | Leaguerly.Api/Models/Standing.cs:103-111 | the output is a permutation ordered by points, then goal differential, descending; standings equal on both keep their input order |
| TieBreakFacts.LargeGroupSkipsHeadToHead | Leaguerly.Api/Models/Standing.cs:73-77 | a group of more than two is ordered by LastSort alone, whatever the games |
| TieBreakFacts.HeadToHeadCoversPair | Leaguerly.Api/Models/Standing.cs:79-85 | if two distinct teams met, their head-to-head standings are exactly two: the first meeting's home team, then its away team, when no game is a self-game |
| TieBreakFacts.HeadToHeadPairShape | Leaguerly.Api/Models/Standing.cs:79-89 | the pair used for resolution is the group itself when the teams never met, otherwise their head-to-head standings; it always holds both teams, when no game is a self-game |
| TieBreakFacts.PairResolution | Leaguerly.Api/Models/Standing.cs:79-97 | the emitted pair is the group's two full-season standings, in the order LastSort gives to the pair used for resolution, when no game is a self-game |
| TieBreakFacts.UncountedMeetingsKeepFirstMeetingOrder | Leaguerly.Api/Models/Standing.cs:80-91 | if two tied teams met only in excluded games, they are ordered as the first such game lists them, home team first, when no game is a self-game |
| TieBreakFacts.SelfGameShrinksPair | Leaguerly.Api/Models/Standing.cs:80-97 | a game between a team and itself can make the resolved pair lose a standing |
| TableFacts.SplitByPoints | Leaguerly.Api/Models/Standing.cs:61-65 | a points group and the remainder together are exactly the input, as a multiset |
| TableFacts.LeadGroupThenRest | Leaguerly.Api/Models/Standing.cs:61-65 | on a table sorted by points, the leading points group followed by the remainder is the table itself, so both keep table order |
| TableFacts.WithoutPointsKeepsOrder | Leaguerly.Api/Models/Standing.cs:61-65 | removing a points group from a table sorted by points leaves it sorted |
| TableFacts.ResolveGroupPermutes | Leaguerly.Api/Models/Standing.cs:66-97 | each points group is emitted as a permutation of itself, when no game is a self-game |
| TableFacts.SortGroupsCorrect | Leaguerly.Api/Models/Standing.cs:65-98 | resolving the groups one by one keeps exactly the standings, with points never increasing, when no game is a self-game |
| TableFacts.SortPermutes | Leaguerly.Api/Models/Standing.cs:58-101 | the sorted table is a permutation of the standings, when no game is a self-game |
| TableFacts.SortKeepsPointsOrder | Leaguerly.Api/Models/Standing.cs:58-101 | points never increase down the sorted table, whatever the games, self-games included |
| TableFacts.ResolveGroupStaysInGroup | Leaguerly.Api/Models/Standing.cs:66-97 | with one standing per team, every standing a points group emits is a member of that group |
| TableFacts.SortGroupsKeepsPointsOrder | Leaguerly.Api/Models/Standing.cs:65-98 | resolving the groups of a table sorted by points emits only its standings, with points never increasing, whatever the games |
| TableFacts.CalculateStandingsCorrect | Leaguerly.Api/Models/Standing.cs:21-25 | the table is a permutation of the unsorted standings: one row per team that played, each the team's full-season standing, no team twice, points never increasing, when no game is a self-game |
| TableFacts.TableListsTeamIffAppears | Leaguerly.Api/Models/Standing.cs:21-25 | a team is in the table iff it plays in some game, when no game is a self-game |
| Scenarios.HomeWinTable | Leaguerly.Api/Models/Standing.cs:21-25 | one game won 2-1 at home gives the home team a win, 3 points and 2-1 goals, listed first, and the away team a loss |
| Scenarios.SingleHomeWinTable | Leaguerly.Api/Models/Standing.cs:21-25 | a single counted home win between two teams lists the home team's record first, then the away team's |
| Scenarios.DrawKeepsHomeFirst | Leaguerly.Api/Models/Standing.cs:79-97 | a single drawn game gives each team a tie and a point, and the table keeps the home team first |
| Scenarios.ForfeitCostsAPoint | Leaguerly.Api/Models/Standing.cs:43 | in any counted forfeited game between two teams, the forfeiting team is charged one forfeit, a point off what its wins and ties earn, and still wins exactly when it outscored the other side; the other side is charged no forfeit |

## Left out

- The web layer (`GamesController`), persistence and the `Team`, `Player`,
  `Location` and `Booking` types are not modelled. Neither are a game's `Id`,
  `Date`, location and `DivisionId`: the standings engine never reads them.
- `Score` (`Score.GetScore`) is not modelled from code: the rule
  `Scores.GetScore` uses is an assumption. The higher score wins, the lower score
  loses, and equal scores tie. Forfeits do not change the result.
- Integer width is not modelled. C# `int` arithmetic in `Points`, the checked
  LINQ `Sum(goal => goal.Count)` of `Game.GetScore` (Leaguerly.Api/Models/Game.cs:51)
  and the checked `Sum` behind goals for and against overflow at 2^31. The model
  uses unbounded integers.
- Exceptions are not modelled:
  - `Single()` throws when a team matches twice or not at all. `TieBreak.Lookup`
    returns the first match instead. The standings `GetStandings` builds hold one
    standing per team (`Standings.GetStandings` ensures this), so the lookup
    always finds exactly one.
  - A null goal collection or player is not modelled.
- LINQ deferred evaluation, list mutation and object identity are not modelled.
  `Distinct()` over `Team` objects is modelled as distinctness of team ids.
  Every function here is pure, so calling `CalculateStandings` twice on the same
  games trivially gives the same table. No lemma states this.
- Games that list the same team as both home and away (self-games) are not
  excluded by the source. In a tied pair, such a game can make the tie-break
  drop a standing: `TieBreakFacts.SelfGameShrinksPair` shows one. The lemmas
  listed next assume there are none, and their rows say so. The points order of
  the table (`TableFacts.SortKeepsPointsOrder`) and the zero sum of the goal
  differentials (`StandingsFacts.GoalDifferentialsSumToZero`) hold with
  self-games too.
- TableFacts.CalculateStandingsCorrect: assumes no self-games, because a
  dropped standing breaks the permutation.
- TableFacts.SortPermutes: assumes no self-games, for the same reason.
- TableFacts.SortGroupsCorrect: assumes no self-games, for the same reason.
- TableFacts.ResolveGroupPermutes: assumes no self-games, for the same reason.
- TableFacts.TableListsTeamIffAppears: assumes no self-games, because a team
  whose standing is dropped is missing from the table.
- TieBreakFacts.PairResolution: assumes no self-games, for the reason above.
- TieBreakFacts.HeadToHeadPairShape: assumes no self-games. A self-game gives
  the head-to-head standings a team's record without the other's.
- TieBreakFacts.HeadToHeadCoversPair: assumes no self-games, for the same
  reason.
- TieBreakFacts.UncountedMeetingsKeepFirstMeetingOrder: assumes no self-games,
  for the same reason.
- StandingsFacts.GoalsBalance: assumes no self-games. Such a game gives its one
  team the home score only, while the game's goals total both sides.
- StandingsFacts.GoalsBalanceOver: assumes no self-games, for the same reason.
- TieBreak.LastSort: its own contract states only the permutation. The ordering
  and stability are stated in `TieBreakFacts.LastSortOrder`.
- Sorting.SortBy: its own contract states only the permutation. The ordering is
  stated in `Sorting.SortByOrdered` and stability in `Sorting.SortByIsStable`.
- Standings.Dedupe: its own contract does not state the order of the values.
  `Standings.DedupeKeepsFirstOccurrenceOrder` states it.
- Games.GoalsFor: its own contract states membership only. Multiplicities are
  stated in `Games.GoalsForMultiplicity`.
- TieBreak.WithPoints: its own contract states membership only. The order is
  stated in `TieBreak.WithPointsIsKeyGroup`.
- TieBreak.WithoutPoints: its own contract states which standings it keeps, not
  their order. `SortGroups` only applies it to a table sorted by points, and
  there `TableFacts.LeadGroupThenRest` shows the remainder is the table after the
  leading group, in table order.
- TieBreak.Sort: its own contract states only where its rows come from. The
  permutation is in `TableFacts.SortPermutes`, which assumes no self-games, and
  the points order in `TableFacts.SortKeepsPointsOrder`.
- TieBreak.CalculateStandings: its own contract states only where its rows come
  from. The full statement is `TableFacts.CalculateStandingsCorrect`, which
  assumes no self-games.
- TieBreak.SortGroups: its own contract states only where its rows come from.
  The permutation and the points order are in `TableFacts.SortGroupsCorrect`,
  which assumes no self-games; the points order alone is in
  `TableFacts.SortGroupsKeepsPointsOrder`, which does not.
- TieBreak.ResolveGroup: its own contract does not state that a pair is
  permuted. That is `TableFacts.ResolveGroupPermutes`, which assumes no
  self-games.
- TieBreak.ResolvePair: its own contract does not state the order or that both
  teams come out. That is `TieBreakFacts.PairResolution`, which assumes no
  self-games.
- TieBreak.HeadToHeadPair: its own contract states only which teams the pair can
  hold. Its exact value is stated in `TieBreakFacts.HeadToHeadPairShape`.

=== FILE: games.dfy ===
/** A game record and the goal-based score of one side of it
    (Leaguerly.Api/Models/Game.cs). */
module Games {
  import opened Wrappers

  /** One goal record: the ids of the scoring player's team affiliations
      (`goal.Player.Teams`) and how many goals the record tallies. */
  datatype Goal = Goal(playerTeams: set<int>, count: int)

  /** The fields of a game that the standings engine reads. A team is its
      integer id, so the home team object and `HomeTeamId` are one field
      here (likewise for the away side). `forfeitingTeamId` is C#'s `int?`. */
  datatype Game = Game(
    homeTeamId: int,
    awayTeamId: int,
    wasForfeited: bool,
    forfeitingTeamId: Option<int>,
    includeInStandings: bool,
    goals: seq<Goal>)

  /** A goal counts for a team iff the team's id is among its player's teams. */
  predicate CountsFor(goal: Goal, teamId: int)
  {
    teamId in goal.playerTeams
  }

  /** The goals of a collection that count for `teamId`, in collection order. */
  function GoalsFor(goals: seq<Goal>, teamId: int): (r: seq<Goal>)
    ensures |r| <= |goals|
    ensures forall g :: g in r ==> g in goals && CountsFor(g, teamId)
    ensures forall g :: g in goals && CountsFor(g, teamId) ==> g in r
  {
    if |goals| == 0 then []
    else (if CountsFor(goals[0], teamId) then [goals[0]] else []) + GoalsFor(goals[1..], teamId)
  }

  /** `GoalsFor` keeps each goal record that counts for the team as many
      times as the collection holds it, and no other. */
  lemma {:induction false} GoalsForMultiplicity(goals: seq<Goal>, teamId: int)
    ensures forall g ::
      multiset(GoalsFor(goals, teamId))[g] == if CountsFor(g, teamId) then multiset(goals)[g] else 0
    decreases |goals|
  {
    if |goals| > 0 {
      GoalsForMultiplicity(goals[1..], teamId);
      assert goals == [goals[0]] + goals[1..];
    }
  }

  /** The sum of the tallies of a goal collection. */
  function SumCounts(goals: seq<Goal>): int
  {
    if |goals| == 0 then 0 else goals[0].count + SumCounts(goals[1..])
  }

  /** A team's score over a goal collection: the tallies of the goals that count for it. */
  function TeamScore(goals: seq<Goal>, teamId: int): int
  {
    SumCounts(GoalsFor(goals, teamId))
  }

  /** `Game.GetScore(teamId)`. */
  function GetScore(game: Game, teamId: int): int
  {
    TeamScore(game.goals, teamId)
  }

  lemma {:induction false} SumCountsNonNegative(goals: seq<Goal>)
    requires forall g :: g in goals ==> g.count >= 0
    ensures SumCounts(goals) >= 0
    decreases |goals|
  {
    if |goals| > 0 {
      assert forall g :: g in goals[1..] ==> g in goals;
      SumCountsNonNegative(goals[1..]);
    }
  }

  /** A side no goal record belongs to scores nothing, and with non-negative
      tallies no side's score is negative. */
  lemma ScoreSign(game: Game, teamId: int)
    ensures (forall g :: g in game.goals ==> !CountsFor(g, teamId)) ==> GetScore(game, teamId) == 0
    ensures (forall g :: g in game.goals ==> g.count >= 0) ==> GetScore(game, teamId) >= 0
  {
    var kept := GoalsFor(game.goals, teamId);
    if |kept| > 0 {
      assert kept[0] in game.goals && CountsFor(kept[0], teamId);
    }
    if forall g :: g in game.goals ==> g.count >= 0 {
      SumCountsNonNegative(kept);
    }
  }

  function HomeTeamScore(game: Game): int
  {
    GetScore(game, game.homeTeamId)
  }

  function AwayTeamScore(game: Game): int
  {
    GetScore(game, game.awayTeamId)
  }

  /** The goal a single record adds to `teamId`'s score. */
  function Contribution(goal: Goal, teamId: int): int
  {
    if CountsFor(goal, teamId) then goal.count else 0
  }

  /** A game as the constructor leaves it: the goal collection starts empty. */
  function NewGame(homeTeamId: int, awayTeamId: int, wasForfeited: bool,
                   forfeitingTeamId: Option<int>, includeInStandings: bool): (g: Game)
    ensures g.homeTeamId == homeTeamId && g.awayTeamId == awayTeamId
    ensures g.wasForfeited == wasForfeited && g.forfeitingTeamId == forfeitingTeamId
    ensures g.includeInStandings == includeInStandings
    ensures HomeTeamScore(g) == 0 && AwayTeamScore(g) == 0
    ensures forall t :: GetScore(g, t) == 0
  {
    Game(homeTeamId, awayTeamId, wasForfeited, forfeitingTeamId, includeInStandings, [])
  }

  /** The game with one more goal record added to its collection. */
  function AddGoal(game: Game, goal: Goal): (g: Game)
    ensures g.homeTeamId == game.homeTeamId && g.awayTeamId == game.awayTeamId
    ensures |g.goals| == |game.goals| + 1
  {
    game.(goals := game.goals + [goal])
  }

  lemma {:induction false} SumCountsConcat(a: seq<Goal>, b: seq<Goal>)
    ensures SumCounts(a + b) == SumCounts(a) + SumCounts(b)
    decreases |a|
  {
    if |a| == 0 {
      assert a + b == b;
    } else {
      assert (a + b)[1..] == a[1..] + b;
      SumCountsConcat(a[1..], b);
    }
  }

  lemma {:induction false} GoalsForConcat(a: seq<Goal>, b: seq<Goal>, teamId: int)
    ensures GoalsFor(a + b, teamId) == GoalsFor(a, teamId) + GoalsFor(b, teamId)
    decreases |a|
  {
    if |a| == 0 {
      assert a + b == b;
    } else {
      assert (a + b)[0] == a[0];
      assert (a + b)[1..] == a[1..] + b;
      GoalsForConcat(a[1..], b, teamId);
    }
  }

  /** A team's score over two collections together is the sum of its scores over each. */
  lemma TeamScoreConcat(a: seq<Goal>, b: seq<Goal>, teamId: int)
    ensures TeamScore(a + b, teamId) == TeamScore(a, teamId) + TeamScore(b, teamId)
  {
    GoalsForConcat(a, b, teamId);
    SumCountsConcat(GoalsFor(a, teamId), GoalsFor(b, teamId));
  }

  /** A team's score is the sum, over every goal record, of what that record
      contributes to the team: its tally if the player is affiliated with the
      team, nothing otherwise. */
  lemma {:induction false} TeamScoreIsSumOfContributions(goals: seq<Goal>, teamId: int)
    ensures |goals| == 0 ==> TeamScore(goals, teamId) == 0
    ensures |goals| > 0 ==>
      TeamScore(goals, teamId) == Contribution(goals[0], teamId) + TeamScore(goals[1..], teamId)
  {
    if |goals| > 0 {
      var head := if CountsFor(goals[0], teamId) then [goals[0]] else [];
      assert GoalsFor(goals, teamId) == head + GoalsFor(goals[1..], teamId);
      SumCountsConcat(head, GoalsFor(goals[1..], teamId));
    }
  }

  /** Adding a goal record raises the score of every team its player is
      affiliated with by exactly the record's tally and leaves every other
      team's score unchanged. */
  lemma AddGoalScore(game: Game, goal: Goal, teamId: int)
    ensures CountsFor(goal, teamId) ==> GetScore(AddGoal(game, goal), teamId) == GetScore(game, teamId) + goal.count
    ensures !CountsFor(goal, teamId) ==> GetScore(AddGoal(game, goal), teamId) == GetScore(game, teamId)
  {
    TeamScoreConcat(game.goals, [goal], teamId);
    TeamScoreIsSumOfContributions([goal], teamId);
    TeamScoreIsSumOfContributions([], teamId);
    assert [goal][1..] == [];
  }

  /** A goal whose player belongs to neither side changes neither score. */
  lemma UnaffiliatedGoalIsInert(game: Game, goal: Goal)
    requires !CountsFor(goal, game.homeTeamId) && !CountsFor(goal, game.awayTeamId)
    ensures HomeTeamScore(AddGoal(game, goal)) == HomeTeamScore(game)
    ensures AwayTeamScore(AddGoal(game, goal)) == AwayTeamScore(game)
  {
    AddGoalScore(game, goal, game.homeTeamId);
    AddGoalScore(game, goal, game.awayTeamId);
  }

  /** Attribution is not exclusive: a goal whose player belongs to both sides
      raises both scores by its tally. */
  lemma SharedGoalCountsForBoth(game: Game, goal: Goal)
    requires CountsFor(goal, game.homeTeamId) && CountsFor(goal, game.awayTeamId)
    ensures HomeTeamScore(AddGoal(game, goal)) == HomeTeamScore(game) + goal.count
    ensures AwayTeamScore(AddGoal(game, goal)) == AwayTeamScore(game) + goal.count
  {
    AddGoalScore(game, goal, game.homeTeamId);
    AddGoalScore(game, goal, game.awayTeamId);
  }

  /** Taking one record out of a collection takes its contribution out of the score. */
  lemma TeamScoreWithout(b: seq<Goal>, i: int, teamId: int)
    requires 0 <= i < |b|
    ensures TeamScore(b, teamId) == Contribution(b[i], teamId) + TeamScore(b[..i] + b[i+1..], teamId)
  {
    assert b == b[..i] + [b[i]] + b[i+1..];
    TeamScoreConcat(b[..i] + [b[i]], b[i+1..], teamId);
    TeamScoreConcat(b[..i], [b[i]], teamId);
    TeamScoreConcat(b[..i], b[i+1..], teamId);
    TeamScoreIsSumOfContributions([b[i]], teamId);
    TeamScoreIsSumOfContributions([], teamId);
    assert [b[i]][1..] == [];
  }

  lemma MultisetWithout<T>(a: seq<T>, b: seq<T>, i: int)
    requires 0 < |a| && 0 <= i < |b| && b[i] == a[0]
    requires multiset(a) == multiset(b)
    ensures multiset(a[1..]) == multiset(b[..i] + b[i+1..])
  {
    assert a == [a[0]] + a[1..];
    assert b == b[..i] + [b[i]] + b[i+1..];
    calc {
      multiset(a[1..]);
      multiset(a) - multiset{a[0]};
      multiset(b) - multiset{b[i]};
      multiset(b[..i] + b[i+1..]);
    }
  }

  /** The goal collection is unordered in the source: a team's score depends
      only on which records there are, not on their order. */
  lemma {:induction false} TeamScoreIgnoresOrder(a: seq<Goal>, b: seq<Goal>, teamId: int)
    requires multiset(a) == multiset(b)
    ensures TeamScore(a, teamId) == TeamScore(b, teamId)
    decreases |a|
  {
    if |a| == 0 {
      assert |b| == |multiset(b)| == 0;
    } else {
      assert a[0] in multiset(b);
      var i :| 0 <= i < |b| && b[i] == a[0];
      MultisetWithout(a, b, i);
      TeamScoreIgnoresOrder(a[1..], b[..i] + b[i+1..], teamId);
      TeamScoreIsSumOfContributions(a, teamId);
      TeamScoreWithout(b, i, teamId);
    }
  }

  /** When every goal record belongs to exactly one of two distinct teams, the
      two teams' scores add up to the total tally of the collection. */
  lemma {:induction false} ConsistentGoalsSplitBetweenSides(goals: seq<Goal>, home: int, away: int)
    requires home != away
    requires forall g :: g in goals ==> (CountsFor(g, home) <==> !CountsFor(g, away))
    ensures TeamScore(goals, home) + TeamScore(goals, away) == SumCounts(goals)
    decreases |goals|
  {
    TeamScoreIsSumOfContributions(goals, home);
    TeamScoreIsSumOfContributions(goals, away);
    if |goals| > 0 {
      ConsistentGoalsSplitBetweenSides(goals[1..], home, away);
    }
  }

  /** Home plus away score of a game whose goal records are each affiliated
      with exactly one side is the total number of goals recorded. */
  lemma ConsistentGameScoreTotal(game: Game)
    requires game.homeTeamId != game.awayTeamId
    requires forall g :: g in game.goals ==>
      (CountsFor(g, game.homeTeamId) <==> !CountsFor(g, game.awayTeamId))
    ensures HomeTeamScore(game) + AwayTeamScore(game) == SumCounts(game.goals)
  {
    ConsistentGoalsSplitBetweenSides(game.goals, game.homeTeamId, game.awayTeamId);
  }
}

=== FILE: scenarios.dfy ===
/** Small worked leagues: the league table of a single game, computed end to end. */
module Scenarios {
  import opened Wrappers
  import opened Games
  import opened Sorting
  import opened Standings
  import opened TieBreak
  import opened TableFacts

  /** A home win by 2 goals (one record of count 2) to 1: the home team
      leads with a win and three points, the away team follows with a loss. */
  lemma HomeWinTable()
    ensures var g := Game(1, 2, false, None, true, [Goal({1}, 2), Goal({2}, 1)]);
      CalculateStandings([g])
        == [Standing(1, 1, 0, 0, 0, 1, 2, 1), Standing(2, 0, 1, 0, 0, 1, 1, 2)]
  {
    var g := Game(1, 2, false, None, true, [Goal({1}, 2), Goal({2}, 1)]);
    HomeWinRecords();
    SingleHomeWinTable(g);
  }

  /** A single counted, unforfeited home win between two different teams:
      the table lists the home team's record of it first, then the away
      team's. */
  lemma SingleHomeWinTable(g: Game)
    requires g.homeTeamId != g.awayTeamId && g.includeInStandings && !g.wasForfeited
    requires HomeTeamScore(g) > AwayTeamScore(g)
    ensures CalculateStandings([g]) == [GameRecord(g, g.homeTeamId), GameRecord(g, g.awayTeamId)]
  {
    var h := GameRecord(g, g.homeTeamId);
    var a := GameRecord(g, g.awayTeamId);
    SingleGameStandings(g);
    GameRecordMatchesScore(g, g.homeTeamId);
    GameRecordMatchesScore(g, g.awayTeamId);
    assert h.Points() == 3 && a.Points() == 0;
    WinnerFirstTable([g], h, a);
  }

  /** Standings of a winner and a loser give a table in that order. */
  lemma WinnerFirstTable(games: seq<Game>, home: Standing, away: Standing)
    requires GetStandings(games) == [home, away]
    requires home.team != away.team
    requires home.Points() == 3 && away.Points() == 0
    ensures CalculateStandings(games) == [home, away]
  {
    SortWinnerFirst(home, away, games);
  }

  /** The standings of a single counted game between two different teams:
      the home team's record of it, then the away team's. */
  lemma SingleGameStandings(g: Game)
    requires g.homeTeamId != g.awayTeamId && g.includeInStandings
    ensures GetStandings([g]) == [GameRecord(g, g.homeTeamId), GameRecord(g, g.awayTeamId)]
  {
    TwoTeams(g);
    OneCountedGame(g, g.homeTeamId);
    OneCountedGame(g, g.awayTeamId);
    var r := GetStandings([g]);
    assert |r| == 2 && r[0].team == g.homeTeamId && r[1].team == g.awayTeamId;
  }

  lemma HomeWinRecords()
    ensures var g := Game(1, 2, false, None, true, [Goal({1}, 2), Goal({2}, 1)]);
      GameRecord(g, 1) == Standing(1, 1, 0, 0, 0, 1, 2, 1)
      && GameRecord(g, 2) == Standing(2, 0, 1, 0, 0, 1, 1, 2)
  {
    var g := Game(1, 2, false, None, true, [Goal({1}, 2), Goal({2}, 1)]);
    assert GoalsFor(g.goals, 1) == [Goal({1}, 2)];
    assert GoalsFor(g.goals, 2) == [Goal({2}, 1)];
    assert Scores.GetScore(g) == Scores.Score(2, 1, false, Some(1), Some(2));
  }

  /** Two standings three points apart come out best first, unchanged. */
  lemma SortWinnerFirst(home: Standing, away: Standing, games: seq<Game>)
    requires home.team != away.team
    requires home.Points() == 3 && away.Points() == 0
    ensures Sort([home, away], games) == [home, away]
  {
    var table := [home, away];
    assert Insert(away, [], PointsKey) == [away];
    assert Insert(home, [away], PointsKey) == table;
    assert SortBy(table, PointsKey) == table;
    assert WithPoints(table, 3) == [home];
    assert WithoutPoints(table, 3) == [away];
    assert WithPoints([away], 0) == [away];
    assert WithoutPoints([away], 0) == [];
    assert ResolveGroup([home], table, games) == [home];
    assert ResolveGroup([away], table, games) == [away];
    assert SortGroups([away], table, games) == [away];
    assert SortGroups(table, table, games) == table;
  }

  /** A draw between two teams: both take a tie and a point, and the table
      keeps them in the order they were listed, home team first. */
  lemma DrawKeepsHomeFirst(g: Game)
    requires g.homeTeamId != g.awayTeamId && g.includeInStandings
    requires HomeTeamScore(g) == AwayTeamScore(g)
    requires !g.wasForfeited
    ensures var table := CalculateStandings([g]);
      |table| == 2
      && table[0].team == g.homeTeamId && table[1].team == g.awayTeamId
      && table[0].ties == 1 && table[1].ties == 1
      && table[0].Points() == 1 && table[1].Points() == 1
  {
    DrawTable(g);
    DrawRecord(g, g.homeTeamId);
    DrawRecord(g, g.awayTeamId);
  }

  lemma DrawTable(g: Game)
    requires g.homeTeamId != g.awayTeamId && g.includeInStandings
    requires HomeTeamScore(g) == AwayTeamScore(g)
    requires !g.wasForfeited
    ensures CalculateStandings([g]) == [GameRecord(g, g.homeTeamId), GameRecord(g, g.awayTeamId)]
  {
    var table := [GameRecord(g, g.homeTeamId), GameRecord(g, g.awayTeamId)];
    SingleGameStandings(g);
    SingleGameMeeting(g);
    DrawRecord(g, g.homeTeamId);
    DrawRecord(g, g.awayTeamId);
    DrawTableSorted(table, [g]);
  }

  /** A single game is its own head-to-head list. */
  lemma SingleGameMeeting(g: Game)
    ensures HeadToHeadGames([g], [g.homeTeamId, g.awayTeamId]) == [g]
  {
    assert [g][1..] == [];
  }

  /** Either side's record of a drawn, unforfeited game: one tie, one point,
      goal differential zero. */
  lemma DrawRecord(g: Game, team: int)
    requires team == g.homeTeamId || team == g.awayTeamId
    requires HomeTeamScore(g) == AwayTeamScore(g)
    requires !g.wasForfeited
    ensures var r := GameRecord(g, team);
      r.team == team && r.ties == 1 && r.Points() == 1 && r.GoalDifferential() == 0
  {
  }

  /** Two tied standings of a single game between them stay in their order. */
  lemma DrawTableSorted(table: seq<Standing>, games: seq<Game>)
    requires |table| == 2 && table[0].team != table[1].team
    requires forall x :: x in table ==> x.Points() == 1 && x.GoalDifferential() == 0
    requires GetStandings(HeadToHeadGames(games, [table[0].team, table[1].team])) == table
    ensures Sort(table, games) == table
  {
    SortByAllTied(table, PointsKey, Key(1, 0, 0));
    DrawGroupKeepsOrder(table, games);
  }

  lemma DrawGroupKeepsOrder(table: seq<Standing>, games: seq<Game>)
    requires |table| == 2 && table[0].team != table[1].team
    requires forall x :: x in table ==> x.Points() == 1 && x.GoalDifferential() == 0
    requires GetStandings(HeadToHeadGames(games, [table[0].team, table[1].team])) == table
    ensures SortGroups(table, table, games) == table
  {
    AllWithPoints(table, 1);
    DrawPairKeepsOrder(table, games);
  }

  lemma DrawPairKeepsOrder(table: seq<Standing>, games: seq<Game>)
    requires |table| == 2 && table[0].team != table[1].team
    requires forall x :: x in table ==> x.Points() == 1 && x.GoalDifferential() == 0
    requires GetStandings(HeadToHeadGames(games, [table[0].team, table[1].team])) == table
    ensures table[0] in table && table[1] in table
    ensures ResolveGroup(table, table, games) == table
  {
    var k := Key(1, 0, 0);
    assert HeadToHeadPair(table, games) == table;
    forall x | x in table
      ensures LastSortKey(table)(x) == k
    {
      var o := Lookup(table, x.team);
      assert o.Some? && o.value in table;
    }
    SortByAllTied(table, LastSortKey(table), k);
    MapBackIdentity(table);
    assert ResolvePair(table, table, games) == table;
  }

  lemma MapBackIdentity(table: seq<Standing>)
    requires |table| == 2 && table[0].team != table[1].team
    ensures forall h :: h in table ==> Lookup(table, h.team).Some?
    ensures MapBack(table, table) == table
  {
    assert table[1..] == [table[1]];
    assert Lookup(table, table[1].team) == Some(table[1]) by {
      assert table[1..][0] == table[1];
    }
  }

  /** The team that forfeits a game is charged a forfeit, one point off
      what its wins and ties earn, whatever the goals say: it still wins
      exactly when it outscored the other side. The other side is charged
      nothing. */
  lemma ForfeitCostsAPoint(g: Game, forfeiter: int)
    requires g.homeTeamId != g.awayTeamId && g.includeInStandings
    requires g.wasForfeited && g.forfeitingTeamId == Some(forfeiter)
    requires Involves(g, forfeiter)
    ensures var other := if forfeiter == g.homeTeamId then g.awayTeamId else g.homeTeamId;
      var s := StandingFor([g], forfeiter);
      s.forfeits == 1 && s.Points() == 3 * s.wins + s.ties - 1
      && (s.wins == 1 <==> Games.GetScore(g, forfeiter) > Games.GetScore(g, other))
    ensures var other := if forfeiter == g.homeTeamId then g.awayTeamId else g.homeTeamId;
      var o := StandingFor([g], other);
      o.forfeits == 0 && o.Points() == 3 * o.wins + o.ties
  {
    var other := if forfeiter == g.homeTeamId then g.awayTeamId else g.homeTeamId;
    OneCountedGame(g, forfeiter);
    OneCountedGame(g, other);
    GameRecordMatchesScore(g, forfeiter);
  }

  lemma TwoTeams(g: Game)
    requires g.homeTeamId != g.awayTeamId
    ensures Teams([g]) == [g.homeTeamId, g.awayTeamId]
  {
    var s := [g.homeTeamId, g.awayTeamId];
    assert HomeTeams([g]) + AwayTeams([g]) == s;
    assert s[..1] == [g.homeTeamId];
    assert [g.homeTeamId][..0] == [];
    assert Dedupe([g.homeTeamId]) == [g.homeTeamId];
  }

  lemma OneCountedGame(g: Game, team: int)
    requires CountsToward(g, team)
    ensures StandingFor([g], team) == GameRecord(g, team)
  {
    assert [g][1..] == [];
    assert TeamGames([g], team) == [g];
    assert Tally([g], team) == Plus(GameRecord(g, team), Zero(team));
  }
}

=== FILE: scores.dfy ===
/** The result of one game as the standings engine reads it (`Score.GetScore`).
    `Score` is not modelled from code: the rule below (the higher score wins,
    the lower loses, equal scores tie) is an assumption, built from the two
    scores of Game.cs. */
module Scores {
  import opened Wrappers
  import opened Games

  /** The derived result of a game. The winner and loser are absent on a tie. */
  datatype Score = Score(
    homeTeamScore: int,
    awayTeamScore: int,
    isTie: bool,
    winningTeamId: Option<int>,
    losingTeamId: Option<int>)

  function GetScore(game: Game): (s: Score)
    ensures s.homeTeamScore == HomeTeamScore(game) && s.awayTeamScore == AwayTeamScore(game)
    ensures s.isTie <==> s.homeTeamScore == s.awayTeamScore
    ensures s.isTie <==> s.winningTeamId == None
    ensures s.isTie <==> s.losingTeamId == None
    ensures s.winningTeamId == Some(game.homeTeamId) || s.winningTeamId == Some(game.awayTeamId) || s.isTie
    ensures s.winningTeamId == Some(game.homeTeamId) ==> s.losingTeamId == Some(game.awayTeamId)
    ensures s.winningTeamId == Some(game.awayTeamId) ==> s.losingTeamId == Some(game.homeTeamId)
    ensures s.winningTeamId == Some(game.homeTeamId) <==> s.homeTeamScore > s.awayTeamScore
    ensures s.winningTeamId == Some(game.awayTeamId) <==> s.awayTeamScore > s.homeTeamScore
  {
    var home := HomeTeamScore(game);
    var away := AwayTeamScore(game);
    if home > away then
      Score(home, away, false, Some(game.homeTeamId), Some(game.awayTeamId))
    else if away > home then
      Score(home, away, false, Some(game.awayTeamId), Some(game.homeTeamId))
    else
      Score(home, away, true, None, None)
  }

  /** The same game with the sides exchanged. */
  function SwapSides(game: Game): (g: Game)
    ensures g.homeTeamId == game.awayTeamId && g.awayTeamId == game.homeTeamId
    ensures g.goals == game.goals
  {
    game.(homeTeamId := game.awayTeamId, awayTeamId := game.homeTeamId)
  }

  /** The result does not depend on which side is at home: exchanging the
      sides leaves the winner, the loser and the tie flag unchanged and
      exchanges the two scores. */
  lemma ResultIgnoresVenue(game: Game)
    ensures GetScore(SwapSides(game)).winningTeamId == GetScore(game).winningTeamId
    ensures GetScore(SwapSides(game)).losingTeamId == GetScore(game).losingTeamId
    ensures GetScore(SwapSides(game)).isTie == GetScore(game).isTie
    ensures GetScore(SwapSides(game)).homeTeamScore == GetScore(game).awayTeamScore
    ensures GetScore(SwapSides(game)).awayTeamScore == GetScore(game).homeTeamScore
  {
  }
}

=== FILE: sorting.dfy ===
/** A stable sort in descending order of a three-part key, the model of a
    LINQ `OrderByDescending(...).ThenByDescending(...).ThenByDescending(...)`
    chain: the result is a permutation of the input, ordered from the highest
    key to the lowest, and elements with equal keys keep their input order. */
module Sorting {

  /** A sort key compared lexicographically: `first`, then `second`, then `third`. */
  datatype Key = Key(first: int, second: int, third: int)

  /** `a` ranks strictly above `b`. */
  predicate Above(a: Key, b: Key)
  {
    a.first > b.first
    || (a.first == b.first && a.second > b.second)
    || (a.first == b.first && a.second == b.second && a.third > b.third)
  }

  /** No element ranks strictly above an element before it. */
  ghost predicate Ordered<T>(s: seq<T>, key: T -> Key)
  {
    forall i, j :: 0 <= i < j < |s| ==> !Above(key(s[j]), key(s[i]))
  }

  lemma OrderedCons<T>(h: T, t: seq<T>, key: T -> Key)
    requires Ordered(t, key)
    requires forall y :: y in t ==> !Above(key(y), key(h))
    ensures Ordered([h] + t, key)
  {
    var s := [h] + t;
    forall i, j | 0 <= i < j < |s|
      ensures !Above(key(s[j]), key(s[i]))
    {
      if i > 0 {
        assert s[i] == t[i-1] && s[j] == t[j-1];
      } else {
        assert s[j] == t[j-1];
        assert s[j] in t;
      }
    }
  }

  /** Inserts `x` in front of the first element that does not rank strictly
      above it, so that `x` precedes every element it ties with. */
  function Insert<T>(x: T, r: seq<T>, key: T -> Key): (o: seq<T>)
    ensures |o| == |r| + 1
  {
    if |r| == 0 then [x]
    else if Above(key(r[0]), key(x)) then [r[0]] + Insert(x, r[1..], key)
    else [x] + r
  }

  lemma {:induction false} InsertIsPermutation<T>(x: T, r: seq<T>, key: T -> Key)
    ensures multiset(Insert(x, r, key)) == multiset(r) + multiset{x}
    decreases |r|
  {
    if |r| > 0 && Above(key(r[0]), key(x)) {
      InsertIsPermutation(x, r[1..], key);
      assert r == [r[0]] + r[1..];
    }
  }

  lemma {:induction false} InsertKeepsOrder<T>(x: T, r: seq<T>, key: T -> Key)
    requires Ordered(r, key)
    ensures Ordered(Insert(x, r, key), key)
    decreases |r|
  {
    if |r| == 0 {
    } else if Above(key(r[0]), key(x)) {
      var tail := Insert(x, r[1..], key);
      InsertKeepsOrder(x, r[1..], key);
      InsertIsPermutation(x, r[1..], key);
      forall y | y in tail
        ensures !Above(key(y), key(r[0]))
      {
        assert y in multiset(tail);
        if y != x {
          assert y in multiset(r[1..]);
          var j :| 0 <= j < |r[1..]| && r[1..][j] == y;
          assert r[j + 1] == y;
        }
      }
      OrderedCons(r[0], tail, key);
    } else {
      forall y | y in r
        ensures !Above(key(y), key(x))
      {
        var j :| 0 <= j < |r| && r[j] == y;
        if j > 0 {
          assert !Above(key(r[j]), key(r[0]));
        }
      }
      OrderedCons(x, r, key);
    }
  }

  /** Stable insertion sort of `s`, highest key first. */
  function SortBy<T>(s: seq<T>, key: T -> Key): (r: seq<T>)
    ensures multiset(r) == multiset(s)
  {
    if |s| == 0 then []
    else
      assert s == [s[0]] + s[1..];
      var rest := SortBy(s[1..], key);
      InsertIsPermutation(s[0], rest, key);
      Insert(s[0], rest, key)
  }

  /** The sort puts no element after one it ranks strictly above. */
  lemma {:induction false} SortByOrdered<T>(s: seq<T>, key: T -> Key)
    ensures Ordered(SortBy(s, key), key)
    decreases |s|
  {
    if |s| > 0 {
      SortByOrdered(s[1..], key);
      InsertKeepsOrder(s[0], SortBy(s[1..], key), key);
    }
  }

  /** The elements of `s` whose key is `k`, in order. */
  function WithKey<T>(s: seq<T>, key: T -> Key, k: Key): (r: seq<T>)
  {
    if |s| == 0 then []
    else (if key(s[0]) == k then [s[0]] else []) + WithKey(s[1..], key, k)
  }

  lemma WithKeyCons<T>(h: T, t: seq<T>, key: T -> Key, k: Key)
    ensures WithKey([h] + t, key, k) == (if key(h) == k then [h] else []) + WithKey(t, key, k)
  {
    assert ([h] + t)[0] == h;
    assert ([h] + t)[1..] == t;
  }

  /** One step of `InsertWithKey`: `x` passes an element that ranks above it. */
  lemma InsertWithKeyStep<T>(x: T, r: seq<T>, key: T -> Key, k: Key)
    requires |r| > 0 && Above(key(r[0]), key(x))
    requires WithKey(Insert(x, r[1..], key), key, k)
      == (if key(x) == k then [x] else []) + WithKey(r[1..], key, k)
    ensures WithKey(Insert(x, r, key), key, k)
      == (if key(x) == k then [x] else []) + WithKey(r, key, k)
  {
    var tail := Insert(x, r[1..], key);
    var hx: seq<T> := if key(x) == k then [x] else [];
    var h0: seq<T> := if key(r[0]) == k then [r[0]] else [];
    var rest := WithKey(r[1..], key, k);
    assert Insert(x, r, key) == [r[0]] + tail;
    WithKeyCons(r[0], tail, key, k);
    assert WithKey(Insert(x, r, key), key, k) == h0 + (hx + rest);
    assert r == [r[0]] + r[1..];
    WithKeyCons(r[0], r[1..], key, k);
    assert WithKey(r, key, k) == h0 + rest;
    assert h0 == [] || hx == [];
    assert h0 + (hx + rest) == hx + (h0 + rest);
  }

  lemma {:induction false} InsertWithKey<T>(x: T, r: seq<T>, key: T -> Key, k: Key)
    ensures WithKey(Insert(x, r, key), key, k)
      == (if key(x) == k then [x] else []) + WithKey(r, key, k)
    decreases |r|
  {
    if |r| == 0 {
      assert Insert(x, r, key) == [x] + r;
      WithKeyCons(x, r, key, k);
    } else if Above(key(r[0]), key(x)) {
      InsertWithKey(x, r[1..], key, k);
      InsertWithKeyStep(x, r, key, k);
    } else {
      assert Insert(x, r, key) == [x] + r;
      WithKeyCons(x, r, key, k);
    }
  }

  /** Stability: for every key value, the elements with that key appear in
      the sorted sequence in exactly the order they had in the input. */
  lemma {:induction false} SortByIsStable<T>(s: seq<T>, key: T -> Key, k: Key)
    ensures WithKey(SortBy(s, key), key, k) == WithKey(s, key, k)
    decreases |s|
  {
    if |s| > 0 {
      SortByIsStable(s[1..], key, k);
      InsertWithKey(s[0], SortBy(s[1..], key), key, k);
    }
  }

  /** A sequence whose elements all carry the same key is already sorted:
      sorting it returns it unchanged. */
  lemma SortByAllTied<T>(s: seq<T>, key: T -> Key, k: Key)
    requires forall y :: y in s ==> key(y) == k
    ensures SortBy(s, key) == s
  {
    WithKeyAll(s, key, k);
    forall y | y in SortBy(s, key)
      ensures key(y) == k
    {
      assert y in multiset(SortBy(s, key));
    }
    WithKeyAll(SortBy(s, key), key, k);
    SortByIsStable(s, key, k);
  }

  lemma {:induction false} WithKeyAll<T>(s: seq<T>, key: T -> Key, k: Key)
    requires forall y :: y in s ==> key(y) == k
    ensures WithKey(s, key, k) == s
    decreases |s|
  {
    if |s| > 0 {
      WithKeyAll(s[1..], key, k);
      assert s == [s[0]] + s[1..];
    }
  }

  lemma {:induction false} InsertSameOrder<T>(x: T, r: seq<T>, k1: T -> Key, k2: T -> Key)
    requires forall y :: y in r ==> (Above(k1(y), k1(x)) <==> Above(k2(y), k2(x)))
    ensures Insert(x, r, k1) == Insert(x, r, k2)
    decreases |r|
  {
    if |r| > 0 {
      assert r[0] in r;
      InsertSameOrder(x, r[1..], k1, k2);
    }
  }

  /** Only the order a key induces matters: two keys that rank the elements
      of `s` the same way sort `s` identically. */
  lemma {:induction false} SortBySameOrder<T>(s: seq<T>, k1: T -> Key, k2: T -> Key)
    requires forall a, b :: a in s && b in s ==> (Above(k1(a), k1(b)) <==> Above(k2(a), k2(b)))
    ensures SortBy(s, k1) == SortBy(s, k2)
    decreases |s|
  {
    if |s| > 0 {
      SortBySameOrder(s[1..], k1, k2);
      var r := SortBy(s[1..], k1);
      forall y | y in r
        ensures Above(k1(y), k1(s[0])) <==> Above(k2(y), k2(s[0]))
      {
        assert y in multiset(s[1..]);
        assert y in s;
      }
      InsertSameOrder(s[0], r, k1, k2);
    }
  }
}

=== FILE: standings.dfy ===
/** A team's standing and the aggregation of standings from a list of games
    (`Standing`, `Points`, `GoalDifferential` and `GetStandings` of
    Leaguerly.Api/Models/Standing.cs). */
module Standings {
  import opened Wrappers
  import opened Games
  import Scores

  /** A team's record over a set of games. `team` is the team's id. */
  datatype Standing = Standing(
    team: int,
    wins: nat,
    losses: nat,
    ties: nat,
    forfeits: nat,
    gamesPlayed: nat,
    goalsFor: int,
    goalsAgainst: int)
  {
    function Points(): int
    {
      3 * wins + ties - forfeits
    }

    function GoalDifferential(): int
    {
      goalsFor - goalsAgainst
    }
  }

  /** The record of a team that has played no counted game. */
  function Zero(team: int): Standing
  {
    Standing(team, 0, 0, 0, 0, 0, 0, 0)
  }

  /** Field-wise sum of two records, kept under the first record's team. */
  function Plus(a: Standing, b: Standing): Standing
  {
    Standing(a.team, a.wins + b.wins, a.losses + b.losses, a.ties + b.ties,
             a.forfeits + b.forfeits, a.gamesPlayed + b.gamesPlayed,
             a.goalsFor + b.goalsFor, a.goalsAgainst + b.goalsAgainst)
  }

  predicate Involves(game: Game, team: int)
  {
    game.homeTeamId == team || game.awayTeamId == team
  }

  /** The filter that selects a team's games: it plays in the game and the
      game is flagged to count toward standings. */
  predicate CountsToward(game: Game, team: int)
  {
    Involves(game, team) && game.includeInStandings
  }

  /** The games of `games` that count toward `team`'s standing, in order. */
  function TeamGames(games: seq<Game>, team: int): (r: seq<Game>)
    ensures |r| <= |games|
  {
    if |games| == 0 then []
    else (if CountsToward(games[0], team) then [games[0]] else []) + TeamGames(games[1..], team)
  }

  /** What one game adds to `team`'s record: one game played, a win, loss or
      tie according to the game's result, a forfeit if the team forfeited it,
      and the goals scored by and against the team. */
  function GameRecord(game: Game, team: int): Standing
  {
    var score := Scores.GetScore(game);
    Standing(
      team,
      if score.winningTeamId == Some(team) then 1 else 0,
      if score.losingTeamId == Some(team) then 1 else 0,
      if score.isTie then 1 else 0,
      if game.wasForfeited && game.forfeitingTeamId == Some(team) then 1 else 0,
      1,
      if game.homeTeamId == team then score.homeTeamScore else score.awayTeamScore,
      if game.homeTeamId == team then score.awayTeamScore else score.homeTeamScore)
  }

  /** For a team that plays in a game, its record of the game is one game
      played under its own id, and a win exactly when
      it outscored the other side, a loss exactly when it was outscored and
      a tie otherwise. It is charged a forfeit exactly when it forfeited the
      game, and its goals for and against are its own and the other side's
      score. */
  lemma GameRecordMatchesScore(game: Game, team: int)
    requires Involves(game, team)
    ensures var r := GameRecord(game, team);
      r.team == team && r.gamesPlayed == 1 && r.forfeits <= 1
      && r.wins + r.losses + r.ties == 1
      && (r.wins == 1 <==> r.goalsFor > r.goalsAgainst)
      && (r.losses == 1 <==> r.goalsFor < r.goalsAgainst)
      && (r.ties == 1 <==> r.goalsFor == r.goalsAgainst)
      && (r.forfeits == 1 <==> game.wasForfeited && game.forfeitingTeamId == Some(team))
      && r.goalsFor == Games.GetScore(game, team)
      && r.goalsAgainst == Games.GetScore(game, if game.homeTeamId == team then game.awayTeamId else game.homeTeamId)
  {
  }

  /** The sum of the per-game records of `team` over `games`. */
  function Tally(games: seq<Game>, team: int): Standing
  {
    if |games| == 0 then Zero(team)
    else Plus(GameRecord(games[0], team), Tally(games[1..], team))
  }

  /** The standing `GetStandings` builds for one team. */
  function StandingFor(games: seq<Game>, team: int): Standing
  {
    Tally(TeamGames(games, team), team)
  }

  /** `team` plays (as home or away) in some game of `games`. */
  ghost predicate Appears(games: seq<Game>, team: int)
  {
    exists i :: 0 <= i < |games| && Involves(games[i], team)
  }

  predicate NoDuplicates(s: seq<int>)
  {
    forall i, j :: 0 <= i < j < |s| ==> s[i] != s[j]
  }

  /** The position of the first occurrence of `x` in `s`. */
  function FirstIndex(s: seq<int>, x: int): (i: nat)
    requires x in s
    ensures i < |s| && s[i] == x
    ensures forall k :: 0 <= k < i ==> s[k] != x
  {
    if s[0] == x then 0 else FirstIndex(s[1..], x) + 1
  }

  /** Appending a value does not move the first occurrence of a value already present. */
  lemma {:induction false} FirstIndexAppend(s: seq<int>, y: int, x: int)
    requires x in s
    ensures FirstIndex(s + [y], x) == FirstIndex(s, x)
    decreases |s|
  {
    if s[0] != x {
      assert (s + [y])[1..] == s[1..] + [y];
      FirstIndexAppend(s[1..], y, x);
    }
  }

  /** `Distinct()`: the first occurrence of each value, in order. */
  function Dedupe(s: seq<int>): (r: seq<int>)
    ensures NoDuplicates(r)
    ensures forall x :: x in r <==> x in s
    ensures |s| > 0 ==> |r| > 0 && r[0] == s[0]
  {
    if |s| == 0 then []
    else
      var d := Dedupe(s[..|s| - 1]);
      assert s == s[..|s| - 1] + [s[|s| - 1]];
      if s[|s| - 1] in d then d else d + [s[|s| - 1]]
  }

  /** `Distinct()` keeps the order of first occurrences: together with the
      contract of `Dedupe` (no duplicates, the same values as `s`), this
      determines its result completely. */
  lemma {:induction false} DedupeKeepsFirstOccurrenceOrder(s: seq<int>)
    ensures forall x :: x in Dedupe(s) ==> x in s
    ensures forall i, j :: 0 <= i < j < |Dedupe(s)| ==>
      FirstIndex(s, Dedupe(s)[i]) < FirstIndex(s, Dedupe(s)[j])
    decreases |s|
  {
    if |s| > 0 {
      var p := s[..|s| - 1];
      var last := s[|s| - 1];
      var d := Dedupe(p);
      assert s == p + [last];
      DedupeKeepsFirstOccurrenceOrder(p);
      forall x | x in p
        ensures FirstIndex(s, x) == FirstIndex(p, x)
      {
        FirstIndexAppend(p, last, x);
      }
      if last !in d {
        var r := d + [last];
        assert Dedupe(s) == r;
        forall i, j | 0 <= i < j < |r|
          ensures FirstIndex(s, r[i]) < FirstIndex(s, r[j])
        {
          assert r[i] == d[i] && d[i] in p;
          if j == |d| {
            assert FirstIndex(s, last) == |p|;
          } else {
            assert r[j] == d[j];
          }
        }
      }
    }
  }

  function HomeTeams(games: seq<Game>): (r: seq<int>)
    ensures |r| == |games|
    ensures forall i :: 0 <= i < |games| ==> r[i] == games[i].homeTeamId
  {
    if |games| == 0 then [] else [games[0].homeTeamId] + HomeTeams(games[1..])
  }

  function AwayTeams(games: seq<Game>): (r: seq<int>)
    ensures |r| == |games|
    ensures forall i :: 0 <= i < |games| ==> r[i] == games[i].awayTeamId
  {
    if |games| == 0 then [] else [games[0].awayTeamId] + AwayTeams(games[1..])
  }

  /** The teams listed as home or away are exactly the teams that appear. */
  lemma SidesAreAppearances(games: seq<Game>, t: int)
    ensures t in HomeTeams(games) + AwayTeams(games) <==> Appears(games, t)
  {
    var homes, aways := HomeTeams(games), AwayTeams(games);
    if t in homes + aways {
      if t in homes {
        var k :| 0 <= k < |homes| && homes[k] == t;
        assert Involves(games[k], t);
      } else {
        var k :| 0 <= k < |aways| && aways[k] == t;
        assert Involves(games[k], t);
      }
    }
    if Appears(games, t) {
      var i :| 0 <= i < |games| && Involves(games[i], t);
      if games[i].homeTeamId == t {
        assert homes[i] in homes;
      } else {
        assert aways[i] in aways;
      }
    }
  }

  /** The distinct teams of `games`: every home team in game order, then
      every away team, each kept at its first occurrence. */
  function Teams(games: seq<Game>): (r: seq<int>)
    ensures NoDuplicates(r)
  {
    Dedupe(HomeTeams(games) + AwayTeams(games))
  }

  /** A team is listed by `Teams` exactly when it plays in some game. */
  lemma TeamsAreAppearances(games: seq<Game>, t: int)
    ensures t in Teams(games) <==> Appears(games, t)
  {
    SidesAreAppearances(games, t);
  }

  /** The first listed team is the home team of the first game. */
  lemma FirstTeamIsFirstHome(games: seq<Game>)
    requires |games| > 0
    ensures |Teams(games)| > 0 && Teams(games)[0] == games[0].homeTeamId
  {
  }

  /** One standing per team of `teams`, in the same order. */
  function StandingsFor(games: seq<Game>, teams: seq<int>): (r: seq<Standing>)
    ensures |r| == |teams|
    ensures forall i :: 0 <= i < |teams| ==> r[i] == StandingFor(games, teams[i])
  {
    if |teams| == 0 then []
    else [StandingFor(games, teams[0])] + StandingsFor(games, teams[1..])
  }

  /** No two standings of `s` belong to the same team. */
  predicate UniqueTeams(s: seq<Standing>)
  {
    forall i, j :: 0 <= i < j < |s| ==> s[i].team != s[j].team
  }

  /** A tally keeps the team's id and counts one game played, and at most
      one forfeit, per game tallied. */
  lemma {:induction false} TallyKeepsTeam(games: seq<Game>, team: int)
    ensures Tally(games, team).team == team
    ensures Tally(games, team).gamesPlayed == |games|
    ensures Tally(games, team).forfeits <= |games|
    decreases |games|
  {
    if |games| > 0 {
      TallyKeepsTeam(games[1..], team);
    }
  }

  /** `GetStandings`: one standing per distinct team that plays in any of
      `games`, in `Teams` order, each computed from that team's counted
      games only. */
  function GetStandings(games: seq<Game>): (r: seq<Standing>)
    ensures |r| == |Teams(games)|
    ensures forall i :: 0 <= i < |r| ==> r[i].team == Teams(games)[i]
    ensures forall i :: 0 <= i < |r| ==> r[i] == StandingFor(games, r[i].team)
    ensures UniqueTeams(r)
  {
    var teams := Teams(games);
    var r := StandingsFor(games, teams);
    assert forall i :: 0 <= i < |r| ==> r[i].team == teams[i] by {
      forall i | 0 <= i < |r|
        ensures r[i].team == teams[i]
      {
        TallyKeepsTeam(TeamGames(games, teams[i]), teams[i]);
      }
    }
    r
  }

  /** A team has a standing exactly when it plays in some game, whether or
      not that game counts toward standings. */
  lemma StandingListedIffAppears(games: seq<Game>, t: int)
    ensures (exists x :: x in GetStandings(games) && x.team == t) <==> Appears(games, t)
  {
    var r := GetStandings(games);
    TeamsAreAppearances(games, t);
    if Appears(games, t) {
      var i :| 0 <= i < |Teams(games)| && Teams(games)[i] == t;
      assert r[i] in r && r[i].team == t;
    }
    if exists x :: x in r && x.team == t {
      var x :| x in r && x.team == t;
      var i :| 0 <= i < |r| && r[i] == x;
      assert Teams(games)[i] == t;
    }
  }

  /** No games, no standings; some games, some standings. */
  lemma EmptyIffNoGames(games: seq<Game>)
    ensures |GetStandings(games)| == 0 <==> |games| == 0
  {
    if |games| > 0 {
      FirstTeamIsFirstHome(games);
    }
  }
}

=== FILE: standings_facts.dfy ===
/** Properties of the standings aggregation: excluded games are inert, every
    counted game is a win, loss or tie, and goals for and against balance
    across the league table. */
module StandingsFacts {
  import opened Wrappers
  import opened Games
  import Scores
  import opened Standings

  /** No game has the same team on both sides. */
  predicate NoSelfGames(games: seq<Game>)
  {
    forall i :: 0 <= i < |games| ==> games[i].homeTeamId != games[i].awayTeamId
  }

  lemma {:induction false} TeamGamesConcat(a: seq<Game>, b: seq<Game>, team: int)
    ensures TeamGames(a + b, team) == TeamGames(a, team) + TeamGames(b, team)
    decreases |a|
  {
    if |a| == 0 {
      assert a + b == b;
    } else {
      assert (a + b)[0] == a[0];
      assert (a + b)[1..] == a[1..] + b;
      TeamGamesConcat(a[1..], b, team);
    }
  }

  lemma {:induction false} TallyConcat(a: seq<Game>, b: seq<Game>, team: int)
    ensures Tally(a + b, team) == Plus(Tally(a, team), Tally(b, team))
    decreases |a|
  {
    if |a| == 0 {
      assert a + b == b;
      TallyKeepsTeam(b, team);
    } else {
      assert (a + b)[0] == a[0];
      assert (a + b)[1..] == a[1..] + b;
      TallyConcat(a[1..], b, team);
      assert Tally(a + b, team) == Plus(GameRecord(a[0], team), Tally(a[1..] + b, team));
      assert Tally(a, team) == Plus(GameRecord(a[0], team), Tally(a[1..], team));
      PlusAssociates(GameRecord(a[0], team), Tally(a[1..], team), Tally(b, team));
    }
  }

  lemma PlusAssociates(x: Standing, y: Standing, z: Standing)
    ensures Plus(x, Plus(y, z)) == Plus(Plus(x, y), z)
  {
  }

  /** A game flagged not to count toward standings changes no team's
      standing, wherever it sits in the list of games. */
  lemma ExcludedGameIsInert(before: seq<Game>, game: Game, after: seq<Game>, team: int)
    requires !game.includeInStandings
    ensures StandingFor(before + [game] + after, team) == StandingFor(before + after, team)
  {
    TeamGamesConcat(before + [game], after, team);
    TeamGamesConcat(before, [game], team);
    TeamGamesConcat(before, after, team);
    assert TeamGames([game], team) == [];
    assert TeamGames(before, team) + [] == TeamGames(before, team);
  }

  /** A team none of whose games counts gets an all-zero standing. */
  lemma {:induction false} NoCountedGamesGivesZero(games: seq<Game>, team: int)
    requires forall i :: 0 <= i < |games| ==> !CountsToward(games[i], team)
    ensures StandingFor(games, team) == Zero(team)
    decreases |games|
  {
    if |games| > 0 {
      NoCountedGamesGivesZero(games[1..], team);
    }
  }

  /** Adding an excluded game to a list of games leaves the standing of every
      team that already played unchanged, and gives a team whose only game it
      is an all-zero standing: it is listed, but with nothing counted. */
  lemma ExcludedGameChangesNoStanding(before: seq<Game>, game: Game, after: seq<Game>)
    requires !game.includeInStandings
    ensures forall x :: x in GetStandings(before + [game] + after) ==>
      x == StandingFor(before + after, x.team)
    ensures forall x :: x in GetStandings(before + [game] + after) && !Appears(before + after, x.team) ==>
      x == Zero(x.team)
    ensures forall t :: t in Teams(before + [game] + after) <==>
      (Appears(before + after, t) || t == game.homeTeamId || t == game.awayTeamId)
  {
    var all := before + [game] + after;
    var rest := before + after;
    forall x | x in GetStandings(all)
      ensures x == StandingFor(rest, x.team)
      ensures !Appears(rest, x.team) ==> x == Zero(x.team)
    {
      ExcludedGameIsInert(before, game, after, x.team);
      if !Appears(rest, x.team) {
        forall i | 0 <= i < |rest|
          ensures !CountsToward(rest[i], x.team)
        {
          assert !Involves(rest[i], x.team);
        }
        NoCountedGamesGivesZero(rest, x.team);
      }
    }
    forall t
      ensures Appears(all, t) <==> (Appears(rest, t) || t == game.homeTeamId || t == game.awayTeamId)
    {
      if Appears(all, t) {
        var i :| 0 <= i < |all| && Involves(all[i], t);
        if i < |before| {
          assert all[i] == rest[i];
        } else if i > |before| {
          assert all[i] == rest[i - 1];
        }
      }
      if Appears(rest, t) {
        var i :| 0 <= i < |rest| && Involves(rest[i], t);
        if i < |before| {
          assert all[i] == rest[i];
        } else {
          assert all[i + 1] == rest[i];
        }
      }
      if t == game.homeTeamId || t == game.awayTeamId {
        assert all[|before|] == game;
      }
    }
  }

  /** Every counted game of a team is exactly one of a win, a loss or a tie
      for it, and a team forfeits at most the games it plays. A game that
      lists the team on both sides is counted once, as a tie. */
  lemma {:induction false} ResultsAddUp(games: seq<Game>, team: int)
    ensures var s := StandingFor(games, team);
      s.wins + s.losses + s.ties == s.gamesPlayed
      && s.forfeits <= s.gamesPlayed
      && s.gamesPlayed == |TeamGames(games, team)|
    decreases |games|
  {
    if |games| > 0 {
      ResultsAddUp(games[1..], team);
      var g := games[0];
      var head := if CountsToward(g, team) then [g] else [];
      assert TeamGames(games, team) == head + TeamGames(games[1..], team);
      TallyConcat(head, TeamGames(games[1..], team), team);
      if CountsToward(g, team) {
        assert Tally(head, team) == Plus(GameRecord(g, team), Zero(team));
      }
    }
  }

  /** A team's points lie between minus its games played (every game a
      forfeited non-win) and three times its games played (every game won). */
  lemma PointsBounds(games: seq<Game>, team: int)
    ensures var s := StandingFor(games, team);
      -(s.gamesPlayed as int) <= s.Points() <= 3 * s.gamesPlayed
  {
    ResultsAddUp(games, team);
  }

  function SumGoalsFor(s: seq<Standing>): int
  {
    if |s| == 0 then 0 else s[0].goalsFor + SumGoalsFor(s[1..])
  }

  function SumGoalsAgainst(s: seq<Standing>): int
  {
    if |s| == 0 then 0 else s[0].goalsAgainst + SumGoalsAgainst(s[1..])
  }

  function SumGoalDifferentials(s: seq<Standing>): int
  {
    if |s| == 0 then 0 else s[0].GoalDifferential() + SumGoalDifferentials(s[1..])
  }

  /** Both sides' goals of every counted game: each goal scored in a counted
      game, once. */
  function CountedGoals(games: seq<Game>): int
  {
    if |games| == 0 then 0
    else
      (if games[0].includeInStandings then HomeTeamScore(games[0]) + AwayTeamScore(games[0]) else 0)
      + CountedGoals(games[1..])
  }

  /** What one game adds to a team's standing. */
  function GameContribution(game: Game, team: int): Standing
  {
    if CountsToward(game, team) then GameRecord(game, team) else Zero(team)
  }

  lemma StandingForCons(game: Game, games: seq<Game>, team: int)
    ensures StandingFor([game] + games, team) == Plus(GameContribution(game, team), StandingFor(games, team))
  {
    var head := if CountsToward(game, team) then [game] else [];
    assert ([game] + games)[1..] == games;
    assert TeamGames([game] + games, team) == head + TeamGames(games, team);
    TallyConcat(head, TeamGames(games, team), team);
    TallyKeepsTeam(TeamGames(games, team), team);
    if CountsToward(game, team) {
      assert Tally(head, team) == Plus(GameRecord(game, team), Zero(team));
    }
  }

  /** The goals one game gives the teams of `teams`, for and against. */
  function GameGoalsFor(game: Game, teams: seq<int>): int
  {
    if |teams| == 0 then 0 else GameContribution(game, teams[0]).goalsFor + GameGoalsFor(game, teams[1..])
  }

  function GameGoalsAgainst(game: Game, teams: seq<int>): int
  {
    if |teams| == 0 then 0 else GameContribution(game, teams[0]).goalsAgainst + GameGoalsAgainst(game, teams[1..])
  }

  lemma {:induction false} SumsSplitOnFirstGame(game: Game, games: seq<Game>, teams: seq<int>)
    ensures SumGoalsFor(StandingsFor([game] + games, teams))
      == GameGoalsFor(game, teams) + SumGoalsFor(StandingsFor(games, teams))
    ensures SumGoalsAgainst(StandingsFor([game] + games, teams))
      == GameGoalsAgainst(game, teams) + SumGoalsAgainst(StandingsFor(games, teams))
    decreases |teams|
  {
    if |teams| > 0 {
      SumsSplitOnFirstGame(game, games, teams[1..]);
      StandingForCons(game, games, teams[0]);
    }
  }

  /** Over distinct teams, a game gives its home side's score to the home
      team and its away side's score to the away team, as goals for, and the
      opposite scores as goals against; other teams get nothing. */
  lemma {:induction false} GameGoalsOverTeams(game: Game, teams: seq<int>)
    requires game.homeTeamId != game.awayTeamId
    requires NoDuplicates(teams)
    ensures var h, a := HomeTeamScore(game), AwayTeamScore(game);
      GameGoalsFor(game, teams) ==
        if !game.includeInStandings then 0
        else (if game.homeTeamId in teams then h else 0) + (if game.awayTeamId in teams then a else 0)
    ensures var h, a := HomeTeamScore(game), AwayTeamScore(game);
      GameGoalsAgainst(game, teams) ==
        if !game.includeInStandings then 0
        else (if game.homeTeamId in teams then a else 0) + (if game.awayTeamId in teams then h else 0)
    decreases |teams|
  {
    if |teams| > 0 {
      NoDuplicatesTail(teams);
      GameGoalsOverTeams(game, teams[1..]);
      assert teams == [teams[0]] + teams[1..];
    }
  }

  lemma NoDuplicatesTail(teams: seq<int>)
    requires |teams| > 0 && NoDuplicates(teams)
    ensures NoDuplicates(teams[1..]) && teams[0] !in teams[1..]
  {
    forall i, j | 0 <= i < j < |teams[1..]|
      ensures teams[1..][i] != teams[1..][j]
    {
      assert teams[1..][i] == teams[i + 1] && teams[1..][j] == teams[j + 1];
    }
    forall j | 0 <= j < |teams[1..]|
      ensures teams[1..][j] != teams[0]
    {
      assert teams[1..][j] == teams[j + 1];
    }
  }

  /** Over distinct teams, a game's goals for minus its goals against are
      the home side's margin if the home team is listed plus the away side's
      margin if the away team is listed. A self-game gives its one team its
      own score both ways, a margin of zero, so the formula needs no
      distinct sides. */
  lemma {:induction false} GameDifferentialOverTeams(game: Game, teams: seq<int>)
    requires NoDuplicates(teams)
    ensures var h, a := HomeTeamScore(game), AwayTeamScore(game);
      GameGoalsFor(game, teams) - GameGoalsAgainst(game, teams) ==
        if !game.includeInStandings then 0
        else (if game.homeTeamId in teams then h - a else 0) + (if game.awayTeamId in teams then a - h else 0)
    decreases |teams|
  {
    if |teams| > 0 {
      NoDuplicatesTail(teams);
      GameDifferentialOverTeams(game, teams[1..]);
      assert teams == [teams[0]] + teams[1..];
    }
  }

  /** Over distinct teams that include both of its sides, a game gives as
      many goals for as goals against. */
  lemma GameGoalsEvenOverTeams(game: Game, teams: seq<int>)
    requires NoDuplicates(teams)
    requires game.homeTeamId in teams && game.awayTeamId in teams
    ensures GameGoalsFor(game, teams) == GameGoalsAgainst(game, teams)
  {
    GameDifferentialOverTeams(game, teams);
  }

  /** Over a list of distinct teams that contains every team of `games`,
      goals for and goals against add up to the same total, self-games
      included. */
  lemma {:induction false} DifferentialsVanishOver(games: seq<Game>, teams: seq<int>)
    requires NoDuplicates(teams)
    requires forall i :: 0 <= i < |games| ==> games[i].homeTeamId in teams && games[i].awayTeamId in teams
    ensures SumGoalsFor(StandingsFor(games, teams)) == SumGoalsAgainst(StandingsFor(games, teams))
    decreases |games|
  {
    if |games| == 0 {
      ZeroSums(teams);
    } else {
      var g, rest := games[0], games[1..];
      assert games == [g] + rest;
      assert g.homeTeamId in teams && g.awayTeamId in teams;
      DifferentialsVanishOver(rest, teams);
      SumsSplitOnFirstGame(g, rest, teams);
      GameGoalsEvenOverTeams(g, teams);
    }
  }

  /** Over a list of distinct teams that contains every team of `games`, the
      goals for and the goals against both add up to the goals of the counted
      games. */
  lemma {:induction false} GoalsBalanceOver(games: seq<Game>, teams: seq<int>)
    requires NoSelfGames(games)
    requires NoDuplicates(teams)
    requires forall i :: 0 <= i < |games| ==> games[i].homeTeamId in teams && games[i].awayTeamId in teams
    ensures SumGoalsFor(StandingsFor(games, teams)) == CountedGoals(games)
    ensures SumGoalsAgainst(StandingsFor(games, teams)) == CountedGoals(games)
    decreases |games|
  {
    if |games| == 0 {
      ZeroSums(teams);
    } else {
      assert games == [games[0]] + games[1..];
      GoalsBalanceOver(games[1..], teams);
      SumsSplitOnFirstGame(games[0], games[1..], teams);
      GameGoalsOverTeams(games[0], teams);
    }
  }

  lemma {:induction false} ZeroSums(teams: seq<int>)
    ensures SumGoalsFor(StandingsFor([], teams)) == 0
    ensures SumGoalsAgainst(StandingsFor([], teams)) == 0
    decreases |teams|
  {
    if |teams| > 0 {
      ZeroSums(teams[1..]);
    }
  }

  lemma {:induction false} DifferentialsSum(s: seq<Standing>)
    ensures SumGoalDifferentials(s) == SumGoalsFor(s) - SumGoalsAgainst(s)
    decreases |s|
  {
    if |s| > 0 {
      DifferentialsSum(s[1..]);
    }
  }

  lemma TeamsCoverGames(games: seq<Game>)
    ensures forall i :: 0 <= i < |games| ==>
      games[i].homeTeamId in Teams(games) && games[i].awayTeamId in Teams(games)
  {
    forall i | 0 <= i < |games|
      ensures games[i].homeTeamId in Teams(games) && games[i].awayTeamId in Teams(games)
    {
      assert Involves(games[i], games[i].homeTeamId);
      assert Involves(games[i], games[i].awayTeamId);
    }
  }

  lemma StandingsAreStandingsForTeams(games: seq<Game>)
    ensures GetStandings(games) == StandingsFor(games, Teams(games))
  {
  }

  /** Every counted goal is one team's goal for and the other's goal
      against: across the league table, goals for and goals against both
      total the goals of the counted games. */
  lemma GoalsBalance(games: seq<Game>)
    requires NoSelfGames(games)
    ensures SumGoalsFor(GetStandings(games)) == CountedGoals(games)
    ensures SumGoalsAgainst(GetStandings(games)) == CountedGoals(games)
  {
    TeamsCoverGames(games);
    GoalsBalanceOver(games, Teams(games));
    StandingsAreStandingsForTeams(games);
  }

  /** Goal differentials across the league table sum to zero, whatever the
      games. */
  lemma GoalDifferentialsSumToZero(games: seq<Game>)
    ensures SumGoalDifferentials(GetStandings(games)) == 0
  {
    var table := GetStandings(games);
    TeamsCoverGames(games);
    DifferentialsVanishOver(games, Teams(games));
    StandingsAreStandingsForTeams(games);
    DifferentialsSum(table);
  }
}

=== FILE: table_facts.dfy ===
/** Properties of the league table `CalculateStandings` produces: it is a
    permutation of the unsorted standings, points never increase down the
    table, and each team that played is listed once with its full-season
    standing. */
module TableFacts {
  import opened Games
  import opened Sorting
  import opened Standings
  import opened StandingsFacts
  import opened TieBreak
  import opened TieBreakFacts

  /** Splitting a sequence into one points group and the rest loses and
      invents nothing. */
  lemma {:induction false} SplitByPoints(s: seq<Standing>, points: int)
    ensures multiset(WithPoints(s, points)) + multiset(WithoutPoints(s, points)) == multiset(s)
    decreases |s|
  {
    if |s| > 0 {
      SplitByPoints(s[1..], points);
      var h := [s[0]];
      assert s == h + s[1..];
      if s[0].Points() == points {
        assert WithPoints(s, points) == h + WithPoints(s[1..], points);
        assert WithoutPoints(s, points) == WithoutPoints(s[1..], points);
      } else {
        assert WithPoints(s, points) == WithPoints(s[1..], points);
        assert WithoutPoints(s, points) == h + WithoutPoints(s[1..], points);
      }
    }
  }

  /** Removing one points group from a table sorted by points leaves it
      sorted by points. */
  lemma {:induction false} WithoutPointsKeepsOrder(s: seq<Standing>, points: int)
    requires PointsNonIncreasing(s)
    ensures PointsNonIncreasing(WithoutPoints(s, points))
    decreases |s|
  {
    if |s| > 0 {
      var t := s[1..];
      TailSorted(s);
      WithoutPointsKeepsOrder(t, points);
      var rest := WithoutPoints(t, points);
      forall x | x in rest
        ensures x.Points() <= s[0].Points()
      {
        var j :| 0 <= j < |t| && t[j] == x;
        assert s[j + 1] == x;
      }
      if s[0].Points() != points {
        assert WithoutPoints(s, points) == [s[0]] + rest;
        PointsCons(s[0], rest);
      } else {
        assert WithoutPoints(s, points) == rest;
      }
    }
  }

  /** A sequence with no standing of `points` is all remainder, no group. */
  lemma {:induction false} NoneWithPoints(s: seq<Standing>, points: int)
    requires forall x :: x in s ==> x.Points() != points
    ensures WithPoints(s, points) == [] && WithoutPoints(s, points) == s
    decreases |s|
  {
    if |s| > 0 {
      assert s[0] in s;
      assert forall x :: x in s[1..] ==> x in s;
      NoneWithPoints(s[1..], points);
      assert s == [s[0]] + s[1..];
    }
  }

  /** A sequence whose standings all have `points` is one group, no remainder. */
  lemma {:induction false} AllWithPoints(s: seq<Standing>, points: int)
    requires forall x :: x in s ==> x.Points() == points
    ensures WithPoints(s, points) == s && WithoutPoints(s, points) == []
    decreases |s|
  {
    if |s| > 0 {
      assert s[0] in s;
      assert forall x :: x in s[1..] ==> x in s;
      AllWithPoints(s[1..], points);
      assert s == [s[0]] + s[1..];
    }
  }

  /** On a table sorted by points, the leading points group is a prefix and
      the remainder the rest, both in table order: the group followed by the
      remainder is the table itself. */
  lemma {:induction false} LeadGroupThenRest(s: seq<Standing>)
    requires |s| > 0 && PointsNonIncreasing(s)
    ensures WithPoints(s, s[0].Points()) + WithoutPoints(s, s[0].Points()) == s
    decreases |s|
  {
    var p := s[0].Points();
    var t := s[1..];
    assert s == [s[0]] + t;
    assert WithPoints(s, p) == [s[0]] + WithPoints(t, p);
    assert WithoutPoints(s, p) == WithoutPoints(t, p);
    if |t| > 0 {
      TailSorted(s);
      if t[0].Points() == p {
        LeadGroupThenRest(t);
      } else {
        BelowSecond(s);
        NoneWithPoints(t, p);
      }
    } else {
      NoneWithPoints(t, p);
    }
    ConsConcat(s[0], WithPoints(t, p), WithoutPoints(t, p));
  }

  lemma ConsConcat(h: Standing, a: seq<Standing>, b: seq<Standing>)
    ensures ([h] + a) + b == [h] + (a + b)
  {
  }

  lemma TailSorted(s: seq<Standing>)
    requires |s| > 0 && PointsNonIncreasing(s)
    ensures PointsNonIncreasing(s[1..])
  {
    var t := s[1..];
    forall i, j | 0 <= i < j < |t|
      ensures t[i].Points() >= t[j].Points()
    {
      assert t[i] == s[i + 1] && t[j] == s[j + 1];
    }
  }

  /** If the second standing of a sorted table has fewer points than the
      first, so does every standing after the first. */
  lemma BelowSecond(s: seq<Standing>)
    requires |s| > 1 && PointsNonIncreasing(s)
    requires s[1].Points() != s[0].Points()
    ensures forall x :: x in s[1..] ==> x.Points() != s[0].Points()
  {
    forall x | x in s[1..]
      ensures x.Points() != s[0].Points()
    {
      var j :| 1 <= j < |s| && s[j] == x;
      assert s[0].Points() >= s[1].Points() >= s[j].Points();
    }
  }

  lemma PointsCons(h: Standing, t: seq<Standing>)
    requires PointsNonIncreasing(t)
    requires forall x :: x in t ==> x.Points() <= h.Points()
    ensures PointsNonIncreasing([h] + t)
  {
    var s := [h] + t;
    forall i, j | 0 <= i < j < |s|
      ensures s[i].Points() >= s[j].Points()
    {
      assert s[j] == t[j - 1];
      if i > 0 {
        assert s[i] == t[i - 1];
      } else {
        assert t[j - 1] in t;
      }
    }
  }

  /** In a table sorted by points, every standing outside the leading
      points group has fewer points than the leaders. */
  lemma BelowLeaders(s: seq<Standing>)
    requires |s| > 0 && PointsNonIncreasing(s)
    ensures forall x :: x in WithoutPoints(s, s[0].Points()) ==> x.Points() < s[0].Points()
  {
    forall x | x in WithoutPoints(s, s[0].Points())
      ensures x.Points() < s[0].Points()
    {
      var i :| 0 <= i < |s| && s[i] == x;
      if i > 0 {
        assert s[0].Points() >= s[i].Points();
      }
    }
  }

  /** A points group followed by a sorted table of fewer points is sorted. */
  lemma ConcatBelow(a: seq<Standing>, b: seq<Standing>, points: int)
    requires forall x :: x in a ==> x.Points() == points
    requires forall x :: x in b ==> x.Points() < points
    requires PointsNonIncreasing(b)
    ensures PointsNonIncreasing(a + b)
  {
    var s := a + b;
    forall i, j | 0 <= i < j < |s|
      ensures s[i].Points() >= s[j].Points()
    {
      if j < |a| {
        assert s[i] == a[i] && s[j] == a[j];
        assert a[i] in a && a[j] in a;
      } else if i < |a| {
        assert s[i] == a[i] && a[i] in a;
        assert s[j] == b[j - |a|] && b[j - |a|] in b;
      } else {
        assert s[i] == b[i - |a|] && s[j] == b[j - |a|];
      }
    }
  }

  /** Each points group comes out of the tie-break as a reordering of
      itself: no standing is lost, duplicated or replaced. */
  lemma ResolveGroupPermutes(group: seq<Standing>, standings: seq<Standing>, games: seq<Game>)
    requires |group| >= 1
    requires multiset(group) <= multiset(standings)
    requires UniqueTeams(standings)
    requires NoSelfGames(games)
    ensures forall x :: x in group ==> x in standings
    ensures multiset(ResolveGroup(group, standings, games)) == multiset(group)
  {
    forall x | x in group
      ensures x in standings
    {
      assert x in multiset(group);
    }
    if |group| == 1 {
      assert ResolveGroup(group, standings, games) == group;
    } else if |group| == 2 {
      GroupOfTwo(group, standings, games);
      PairPermutes(group, standings, games);
    } else {
      LargeGroupSkipsHeadToHead(group, standings, games, games);
    }
  }

  lemma PairPermutes(group: seq<Standing>, standings: seq<Standing>, games: seq<Game>)
    requires |group| == 2
    requires multiset(group) <= multiset(standings)
    requires UniqueTeams(standings)
    requires NoSelfGames(games)
    ensures group[0] in standings && group[1] in standings
    ensures multiset(ResolvePair(group, standings, games)) == multiset(group)
  {
    PairResolution(group, standings, games);
    SwapPermutes(group);
  }

  lemma SwapPermutes(group: seq<Standing>)
    requires |group| == 2
    ensures multiset([group[1], group[0]]) == multiset(group)
  {
    assert group == [group[0]] + [group[1]];
  }

  /** The group-by-group resolution of a table sorted by points keeps
      exactly its standings and keeps it sorted by points. */
  lemma {:induction false} SortGroupsCorrect(sorted: seq<Standing>, standings: seq<Standing>, games: seq<Game>)
    requires multiset(sorted) <= multiset(standings)
    requires UniqueTeams(standings)
    requires NoSelfGames(games)
    requires PointsNonIncreasing(sorted)
    ensures forall x :: x in sorted ==> x in standings
    ensures multiset(SortGroups(sorted, standings, games)) == multiset(sorted)
    ensures PointsNonIncreasing(SortGroups(sorted, standings, games))
    decreases |sorted|
  {
    forall x | x in sorted
      ensures x in standings
    {
      assert x in multiset(sorted);
    }
    if |sorted| > 0 {
      var points := sorted[0].Points();
      var group := WithPoints(sorted, points);
      var rest := WithoutPoints(sorted, points);
      assert group == [sorted[0]] + WithPoints(sorted[1..], points);
      assert rest == WithoutPoints(sorted[1..], points);
      SplitByPoints(sorted, points);
      ResolveGroupPermutes(group, standings, games);
      WithoutPointsKeepsOrder(sorted, points);
      SortGroupsCorrect(rest, standings, games);
      BelowLeaders(sorted);
      var a := ResolveGroup(group, standings, games);
      var b := SortGroups(rest, standings, games);
      GroupThenRest(group, rest, a, b, points);
      assert SortGroups(sorted, standings, games) == a + b;
    }
  }

  lemma GroupThenRest(group: seq<Standing>, rest: seq<Standing>, a: seq<Standing>, b: seq<Standing>, points: int)
    requires forall x :: x in group ==> x.Points() == points
    requires forall x :: x in rest ==> x.Points() < points
    requires multiset(a) == multiset(group) && multiset(b) == multiset(rest)
    requires PointsNonIncreasing(b)
    ensures PointsNonIncreasing(a + b)
  {
    forall x | x in a
      ensures x.Points() == points
    {
      assert x in multiset(group);
    }
    forall x | x in b
      ensures x.Points() < points
    {
      assert x in multiset(rest);
    }
    ConcatBelow(a, b, points);
  }

  /** A sequence sorted by `PointsKey` has points never increasing. */
  lemma OrderedByPoints(s: seq<Standing>)
    requires Ordered(s, PointsKey)
    ensures PointsNonIncreasing(s)
  {
    forall i, j | 0 <= i < j < |s|
      ensures s[i].Points() >= s[j].Points()
    {
      assert !Above(PointsKey(s[j]), PointsKey(s[i]));
    }
  }

  /** `Sort` reorders the standings and nothing more. */
  lemma SortPermutes(standings: seq<Standing>, games: seq<Game>)
    requires UniqueTeams(standings)
    requires NoSelfGames(games)
    ensures multiset(Sort(standings, games)) == multiset(standings)
  {
    var sorted := SortBy(standings, PointsKey);
    SortByOrdered(standings, PointsKey);
    OrderedByPoints(sorted);
    SortGroupsCorrect(sorted, standings, games);
  }

  /** `Sort` puts the standings in order of points, highest first, whatever
      the games, self-games included. */
  lemma SortKeepsPointsOrder(standings: seq<Standing>, games: seq<Game>)
    requires UniqueTeams(standings)
    ensures PointsNonIncreasing(Sort(standings, games))
  {
    var sorted := SortBy(standings, PointsKey);
    SortByOrdered(standings, PointsKey);
    OrderedByPoints(sorted);
    forall x | x in sorted
      ensures x in standings
    {
      assert x in multiset(sorted);
    }
    SortGroupsKeepsPointsOrder(sorted, standings, games);
  }

  /** With one standing per team, every standing a group emits is one of
      the group's own: a pair can lose a standing to a self-game, but never
      gains one from another group. */
  lemma ResolveGroupStaysInGroup(group: seq<Standing>, standings: seq<Standing>, games: seq<Game>)
    requires |group| >= 1
    requires forall x :: x in group ==> x in standings
    requires UniqueTeams(standings)
    ensures forall x :: x in ResolveGroup(group, standings, games) ==> x in group
  {
    var r := ResolveGroup(group, standings, games);
    forall x | x in r
      ensures x in group
    {
      if |group| == 2 {
        assert group[0] in group && group[1] in group;
        if x.team == group[0].team {
          SameTeamSameStanding(standings, x, group[0]);
        } else {
          SameTeamSameStanding(standings, x, group[1]);
        }
      } else if |group| > 2 {
        assert x in multiset(group);
      }
    }
  }

  /** The group-by-group resolution of a table sorted by points keeps it
      sorted by points, whatever the games. */
  lemma {:induction false} SortGroupsKeepsPointsOrder(sorted: seq<Standing>, standings: seq<Standing>, games: seq<Game>)
    requires forall x :: x in sorted ==> x in standings
    requires UniqueTeams(standings)
    requires PointsNonIncreasing(sorted)
    ensures forall x :: x in SortGroups(sorted, standings, games) ==> x in sorted
    ensures PointsNonIncreasing(SortGroups(sorted, standings, games))
    decreases |sorted|
  {
    if |sorted| > 0 {
      var points := sorted[0].Points();
      var group := WithPoints(sorted, points);
      var rest := WithoutPoints(sorted, points);
      assert group == [sorted[0]] + WithPoints(sorted[1..], points);
      assert rest == WithoutPoints(sorted[1..], points);
      ResolveGroupStaysInGroup(group, standings, games);
      WithoutPointsKeepsOrder(sorted, points);
      SortGroupsKeepsPointsOrder(rest, standings, games);
      BelowLeaders(sorted);
      var a := ResolveGroup(group, standings, games);
      var b := SortGroups(rest, standings, games);
      ConcatBelow(a, b, points);
      assert SortGroups(sorted, standings, games) == a + b;
    }
  }

  /** The league table: one row per team that played any game (counted or
      not), each row the team's full-season standing, highest points first. */
  lemma CalculateStandingsCorrect(games: seq<Game>)
    requires NoSelfGames(games)
    ensures var table := CalculateStandings(games);
      multiset(table) == multiset(GetStandings(games))
      && |table| == |Teams(games)|
      && PointsNonIncreasing(table)
      && UniqueTeams(table)
      && (forall x :: x in table ==> x == StandingFor(games, x.team))
  {
    var unsorted := GetStandings(games);
    var table := CalculateStandings(games);
    SortPermutes(unsorted, games);
    SortKeepsPointsOrder(unsorted, games);
    assert |table| == |multiset(table)| == |multiset(unsorted)| == |unsorted|;
    forall x | x in table
      ensures x in unsorted
    {
      assert x in multiset(table);
    }
    forall i, j | 0 <= i < j < |table|
      ensures table[i].team != table[j].team
    {
      PermutationKeepsUniqueTeams(unsorted, table, i, j);
    }
  }

  lemma PermutationKeepsUniqueTeams(s: seq<Standing>, t: seq<Standing>, i: int, j: int)
    requires UniqueTeams(s)
    requires multiset(t) == multiset(s)
    requires 0 <= i < j < |t|
    ensures t[i].team != t[j].team
  {
    assert t[i] in multiset(s) && t[j] in multiset(s);
    if t[i].team == t[j].team {
      SameTeamSameStanding(s, t[i], t[j]);
      assert multiset(t)[t[i]] >= 2 by {
        assert t == t[..i] + [t[i]] + t[i + 1..j] + [t[j]] + t[j + 1..];
      }
      UniqueTeamsMultiplicity(s, t[i]);
      assert false;
    }
  }

  /** A team is in the league table exactly when it played some game,
      counted or not. */
  lemma TableListsTeamIffAppears(games: seq<Game>, t: int)
    requires NoSelfGames(games)
    ensures (exists x :: x in CalculateStandings(games) && x.team == t) <==> Appears(games, t)
  {
    var table := CalculateStandings(games);
    var unsorted := GetStandings(games);
    SortPermutes(unsorted, games);
    StandingListedIffAppears(games, t);
    forall x
      ensures x in table <==> x in unsorted
    {
      assert x in table <==> x in multiset(table);
    }
  }
}

=== FILE: tiebreak.dfy ===
/** The tie-break sort of the league table (`Sort`, `LastSort` and
    `CalculateStandings` of Leaguerly.Api/Models/Standing.cs). */
module TieBreak {
  import opened Wrappers
  import opened Games
  import opened Sorting
  import opened Standings

  /** `standings.Single(s => s.Team.Id == team)`: the standing of `team`
      (the first one, should there be several). */
  function Lookup(standings: seq<Standing>, team: int): (r: Option<Standing>)
    ensures r.Some? ==> r.value in standings && r.value.team == team
    ensures r.None? ==> forall x :: x in standings ==> x.team != team
  {
    if |standings| == 0 then None
    else if standings[0].team == team then Some(standings[0])
    else Lookup(standings[1..], team)
  }

  /** The key of `OrderByDescending(standing => standing.Points)`. */
  function PointsKey(s: Standing): Key
  {
    Key(s.Points(), 0, 0)
  }

  /** The keys of `LastSort` over `list`: points, then goal differential,
      then the goal differential of the standing `list` holds for the same team. */
  function LastKey(list: seq<Standing>, s: Standing): Key
  {
    Key(s.Points(), s.GoalDifferential(),
        match Lookup(list, s.team)
        case Some(o) => o.GoalDifferential()
        case None => 0)
  }

  function LastSortKey(list: seq<Standing>): Standing -> Key
  {
    (s: Standing) => LastKey(list, s)
  }

  /** `LastSort`: a stable sort of `list` by the keys above, best first. */
  function LastSort(list: seq<Standing>): (r: seq<Standing>)
    ensures multiset(r) == multiset(list)
    ensures |r| == |list|
  {
    SortBy(list, LastSortKey(list))
  }

  /** The games both of whose teams are among `teams`. */
  function HeadToHeadGames(games: seq<Game>, teams: seq<int>): (r: seq<Game>)
    ensures |r| <= |games|
    ensures forall g :: g in r <==> g in games && g.homeTeamId in teams && g.awayTeamId in teams
  {
    if |games| == 0 then []
    else
      (if games[0].homeTeamId in teams && games[0].awayTeamId in teams then [games[0]] else [])
      + HeadToHeadGames(games[1..], teams)
  }

  /** `Where` keeps every matching game: a fixture repeated in `games` is
      repeated as often among the head-to-head games, and no other game is
      kept. */
  lemma {:induction false} HeadToHeadGamesMultiplicity(games: seq<Game>, teams: seq<int>)
    ensures forall g ::
              multiset(HeadToHeadGames(games, teams))[g] ==
              if g.homeTeamId in teams && g.awayTeamId in teams then multiset(games)[g] else 0
    decreases |games|
  {
    if |games| > 0 {
      HeadToHeadGamesMultiplicity(games[1..], teams);
      assert games == [games[0]] + games[1..];
    }
  }

  /** `Where` keeps the order of the games: the first head-to-head game is
      the first game, in input order, between teams of `teams`. */
  lemma {:induction false} HeadToHeadFirstIsFirstMeeting(games: seq<Game>, teams: seq<int>)
    requires |HeadToHeadGames(games, teams)| > 0
    ensures exists k ::
              0 <= k < |games| && HeadToHeadGames(games, teams)[0] == games[k] &&
              forall m :: 0 <= m < k ==> !(games[m].homeTeamId in teams && games[m].awayTeamId in teams)
    decreases |games|
  {
    if !(games[0].homeTeamId in teams && games[0].awayTeamId in teams) {
      var rest := games[1..];
      assert HeadToHeadGames(games, teams) == HeadToHeadGames(rest, teams);
      HeadToHeadFirstIsFirstMeeting(rest, teams);
      var k :|
        0 <= k < |rest| && HeadToHeadGames(rest, teams)[0] == rest[k] &&
        forall m :: 0 <= m < k ==> !(rest[m].homeTeamId in teams && rest[m].awayTeamId in teams);
      assert forall m :: 0 < m < k + 1 ==> games[m] == rest[m - 1];
      assert games[k + 1] == rest[k];
    } else {
      assert HeadToHeadGames(games, teams)[0] == games[0];
    }
  }

  /** Every team that plays in a head-to-head game is one of `teams`. */
  lemma HeadToHeadGamesAreBetween(games: seq<Game>, teams: seq<int>, t: int)
    requires Appears(HeadToHeadGames(games, teams), t)
    ensures t in teams
  {
    var h := HeadToHeadGames(games, teams);
    var i :| 0 <= i < |h| && Involves(h[i], t);
    assert h[i] in h;
  }

  /** Maps a resolved order back to the full-season standings of its teams. */
  function MapBack(order: seq<Standing>, standings: seq<Standing>): (r: seq<Standing>)
    requires forall h :: h in order ==> Lookup(standings, h.team).Some?
    ensures |r| == |order|
    ensures forall i :: 0 <= i < |r| ==> r[i] in standings && r[i].team == order[i].team
  {
    if |order| == 0 then []
    else [Lookup(standings, order[0].team).value] + MapBack(order[1..], standings)
  }

  /** The standings the head-to-head aggregate of a two-team group produces
      belong to the group's teams. */
  lemma HeadToHeadTeams(group: seq<Standing>, games: seq<Game>, x: Standing)
    requires |group| == 2
    requires x in GetStandings(HeadToHeadGames(games, [group[0].team, group[1].team]))
    ensures x.team == group[0].team || x.team == group[1].team
  {
    var ids := [group[0].team, group[1].team];
    StandingListedIffAppears(HeadToHeadGames(games, ids), x.team);
    HeadToHeadGamesAreBetween(games, ids, x.team);
  }

  /** The pair a two-team group is resolved on: the head-to-head aggregate,
      or the group itself when that aggregate is empty. */
  function HeadToHeadPair(group: seq<Standing>, games: seq<Game>): (pair: seq<Standing>)
    requires |group| == 2
    ensures forall x :: x in pair ==> x.team == group[0].team || x.team == group[1].team
  {
    var h2h := GetStandings(HeadToHeadGames(games, [group[0].team, group[1].team]));
    assert forall x :: x in h2h ==> x.team == group[0].team || x.team == group[1].team by {
      forall x | x in h2h
        ensures x.team == group[0].team || x.team == group[1].team
      {
        HeadToHeadTeams(group, games, x);
      }
    }
    if |h2h| == 0 then group else h2h
  }

  /** A tied pair: `LastSort` of the pair's head-to-head aggregate (or of
      the pair itself), mapped back to the full-season standings. */
  function ResolvePair(group: seq<Standing>, standings: seq<Standing>, games: seq<Game>): (r: seq<Standing>)
    requires |group| == 2
    requires group[0] in standings && group[1] in standings
    ensures |r| >= 1
    ensures forall x :: x in r ==> x in standings && (x.team == group[0].team || x.team == group[1].team)
  {
    PairOrderInStandings(group, standings, games);
    MapBack(LastSort(HeadToHeadPair(group, games)), standings)
  }

  /** The resolved order of a pair is not empty, and each of its standings
      belongs to one of the pair's teams, whose full-season standing the
      lookup finds. */
  lemma PairOrderInStandings(group: seq<Standing>, standings: seq<Standing>, games: seq<Game>)
    requires |group| == 2
    requires group[0] in standings && group[1] in standings
    ensures var order := LastSort(HeadToHeadPair(group, games));
      |order| >= 1
      && (forall h :: h in order ==> h.team == group[0].team || h.team == group[1].team)
      && (forall h :: h in order ==> Lookup(standings, h.team).Some?)
  {
    var pair := HeadToHeadPair(group, games);
    var order := LastSort(pair);
    forall h | h in order
      ensures h in pair
    {
      assert h in multiset(order);
    }
  }

  /** The ordered standings of one points group. */
  function ResolveGroup(group: seq<Standing>, standings: seq<Standing>, games: seq<Game>): (r: seq<Standing>)
    requires |group| >= 1
    requires forall x :: x in group ==> x in standings
    ensures |r| >= 1
    ensures forall x :: x in r ==> x in standings
    ensures |group| != 2 ==> multiset(r) == multiset(group)
  {
    if |group| == 1 then [group[0]]
    else if |group| > 2 then
      assert forall x :: x in LastSort(group) ==> x in multiset(group);
      LastSort(group)
    else
      assert group[0] in group && group[1] in group;
      ResolvePair(group, standings, games)
  }

  /** `GroupBy(standing => standing.Points)`, one group: the standings with `points`. */
  function WithPoints(s: seq<Standing>, points: int): (r: seq<Standing>)
    ensures |r| <= |s|
    ensures forall x :: x in r ==> x in s && x.Points() == points
    ensures forall x :: x in s && x.Points() == points ==> x in r
  {
    if |s| == 0 then []
    else (if s[0].Points() == points then [s[0]] else []) + WithPoints(s[1..], points)
  }

  /** A points group is the selection of the standings whose `PointsKey` is
      `Key(points, 0, 0)`, in input order: the group the stable sort by
      points keeps together. */
  lemma {:induction false} WithPointsIsKeyGroup(s: seq<Standing>, points: int)
    ensures WithPoints(s, points) == WithKey(s, PointsKey, Key(points, 0, 0))
    decreases |s|
  {
    if |s| > 0 {
      WithPointsIsKeyGroup(s[1..], points);
    }
  }

  /** The standings of `s` outside the group of `points`. */
  function WithoutPoints(s: seq<Standing>, points: int): (r: seq<Standing>)
    ensures |r| <= |s|
    ensures forall x :: x in r ==> x in s && x.Points() != points
    ensures forall x :: x in s && x.Points() != points ==> x in r
  {
    if |s| == 0 then []
    else (if s[0].Points() != points then [s[0]] else []) + WithoutPoints(s[1..], points)
  }

  /** The `foreach` over the points groups of `sorted`, in the order the
      groups first occur, each group resolved and appended. */
  function SortGroups(sorted: seq<Standing>, standings: seq<Standing>, games: seq<Game>): (r: seq<Standing>)
    requires forall x :: x in sorted ==> x in standings
    ensures forall x :: x in r ==> x in standings
    ensures |sorted| > 0 ==> |r| > 0
    decreases |sorted|
  {
    if |sorted| == 0 then []
    else
      var points := sorted[0].Points();
      var group := WithPoints(sorted, points);
      var rest := WithoutPoints(sorted, points);
      assert |group| >= 1 by {
        assert group == [sorted[0]] + WithPoints(sorted[1..], points);
      }
      assert |rest| < |sorted| by {
        assert rest == WithoutPoints(sorted[1..], points);
      }
      ResolveGroup(group, standings, games) + SortGroups(rest, standings, games)
  }

  /** `Sort`: order by points, best first, and break ties group by group. */
  function Sort(standings: seq<Standing>, games: seq<Game>): (r: seq<Standing>)
    requires UniqueTeams(standings)
    ensures forall x :: x in r ==> x in standings
    ensures |r| == 0 <==> |standings| == 0
  {
    var sorted := SortBy(standings, PointsKey);
    assert forall x :: x in sorted ==> x in standings by {
      forall x | x in sorted
        ensures x in standings
      {
        assert x in multiset(sorted);
      }
    }
    SortGroups(sorted, standings, games)
  }

  /** `CalculateStandings`: the league table of `games`. */
  function CalculateStandings(games: seq<Game>): (r: seq<Standing>)
    ensures forall x :: x in r ==> x in GetStandings(games)
    ensures |r| == 0 <==> |games| == 0
  {
    Sort(GetStandings(games), games)
  }
}

=== FILE: tiebreak_facts.dfy ===
/** Properties of the tie-break sort: `LastSort` is a stable sort by points
    and goal differential, each points group comes out as a permutation of
    itself, and the league table is a permutation of the standings with
    points never increasing down the table. */
module TieBreakFacts {
  import opened Wrappers
  import opened Games
  import opened Sorting
  import opened Standings
  import opened StandingsFacts
  import opened TieBreak

  /** Points never increase down the sequence. */
  predicate PointsNonIncreasing(s: seq<Standing>)
  {
    forall i, j :: 0 <= i < j < |s| ==> s[i].Points() >= s[j].Points()
  }

  lemma SameTeamSameStanding(s: seq<Standing>, x: Standing, y: Standing)
    requires UniqueTeams(s)
    requires x in s && y in s && x.team == y.team
    ensures x == y
  {
    var i :| 0 <= i < |s| && s[i] == x;
    var j :| 0 <= j < |s| && s[j] == y;
    assert i == j;
  }

  /** With one standing per team, the lookup of a listed standing's team finds it. */
  lemma {:induction false} LookupFindsListed(standings: seq<Standing>, x: Standing)
    requires UniqueTeams(standings)
    requires x in standings
    ensures Lookup(standings, x.team) == Some(x)
  {
    var r := Lookup(standings, x.team);
    assert r.Some?;
    SameTeamSameStanding(standings, r.value, x);
  }

  lemma {:induction false} UniqueTeamsMultiplicity(s: seq<Standing>, x: Standing)
    requires UniqueTeams(s)
    ensures multiset(s)[x] <= 1
    decreases |s|
  {
    if |s| > 0 {
      assert s == [s[0]] + s[1..];
      assert UniqueTeams(s[1..]) by {
        forall i, j | 0 <= i < j < |s[1..]|
          ensures s[1..][i].team != s[1..][j].team
        {
          assert s[1..][i] == s[i + 1] && s[1..][j] == s[j + 1];
        }
      }
      UniqueTeamsMultiplicity(s[1..], x);
      if x == s[0] {
        assert x !in s[1..] by {
          forall j | 0 <= j < |s[1..]|
            ensures s[1..][j] != x
          {
            assert s[1..][j] == s[j + 1];
          }
        }
      }
    }
  }

  /** Two members of a sub-collection of a one-standing-per-team list belong
      to different teams. */
  lemma PairMembersDiffer(group: seq<Standing>, standings: seq<Standing>)
    requires |group| == 2
    requires multiset(group) <= multiset(standings)
    requires UniqueTeams(standings)
    ensures group[0] in standings && group[1] in standings
    ensures group[0].team != group[1].team
  {
    assert group[0] in multiset(group) && group[1] in multiset(group);
    if group[0].team == group[1].team {
      SameTeamSameStanding(standings, group[0], group[1]);
      assert group == [group[0], group[0]];
      assert multiset(group)[group[0]] == 2;
      UniqueTeamsMultiplicity(standings, group[0]);
    }
  }

  /** The key `LastSort` is equivalent to: points, then goal differential. */
  function GoalDifferentialKey(s: Standing): Key
  {
    Key(s.Points(), s.GoalDifferential(), 0)
  }

  /** `LastSort`'s third key looks the standing being sorted up in the very
      list being sorted, so with one standing per team it repeats the second
      key: `LastSort` sorts by points and goal differential only. */
  lemma LastSortIsPointsThenGoalDifferential(list: seq<Standing>)
    requires UniqueTeams(list)
    ensures LastSort(list) == SortBy(list, GoalDifferentialKey)
  {
    forall a, b | a in list && b in list
      ensures Above(LastSortKey(list)(a), LastSortKey(list)(b))
          <==> Above(GoalDifferentialKey(a), GoalDifferentialKey(b))
    {
      LookupFindsListed(list, a);
      LookupFindsListed(list, b);
    }
    SortBySameOrder(list, LastSortKey(list), GoalDifferentialKey);
  }

  /** `LastSort` returns the same standings, best points first, higher goal
      differential first among equal points, and standings equal on both
      keep their input order. */
  lemma LastSortOrder(list: seq<Standing>)
    requires UniqueTeams(list)
    ensures var r := LastSort(list);
      multiset(r) == multiset(list)
      && (forall i, j :: 0 <= i < j < |r| ==>
            r[i].Points() > r[j].Points()
            || (r[i].Points() == r[j].Points() && r[i].GoalDifferential() >= r[j].GoalDifferential()))
      && (forall k :: WithKey(r, GoalDifferentialKey, k) == WithKey(list, GoalDifferentialKey, k))
  {
    LastSortIsPointsThenGoalDifferential(list);
    var r := LastSort(list);
    SortByOrdered(list, GoalDifferentialKey);
    assert Ordered(r, GoalDifferentialKey);
    forall i, j | 0 <= i < j < |r|
      ensures r[i].Points() > r[j].Points()
        || (r[i].Points() == r[j].Points() && r[i].GoalDifferential() >= r[j].GoalDifferential())
    {
      assert !Above(GoalDifferentialKey(r[j]), GoalDifferentialKey(r[i]));
    }
    forall k
      ensures WithKey(r, GoalDifferentialKey, k) == WithKey(list, GoalDifferentialKey, k)
    {
      SortByIsStable(list, GoalDifferentialKey, k);
    }
  }

  /** A group of more than two teams tied on points is ordered by `LastSort`
      on full-season figures; the games, and so head-to-head results, play no part. */
  lemma LargeGroupSkipsHeadToHead(group: seq<Standing>, standings: seq<Standing>, games: seq<Game>, other: seq<Game>)
    requires |group| > 2
    requires forall x :: x in group ==> x in standings
    ensures ResolveGroup(group, standings, games) == LastSort(group)
    ensures ResolveGroup(group, standings, games) == ResolveGroup(group, standings, other)
  {
  }

  lemma AtMostTwoDistinct(s: seq<int>, a: int, b: int)
    requires NoDuplicates(s)
    requires forall i :: 0 <= i < |s| ==> s[i] == a || s[i] == b
    ensures |s| <= 2
  {
    if |s| > 2 {
      FirstThreeDiffer(s);
      assert false;
    }
  }

  lemma FirstThreeDiffer(s: seq<int>)
    requires NoDuplicates(s) && |s| > 2
    ensures s[0] != s[1] && s[0] != s[2] && s[1] != s[2]
  {
  }

  /** Games played only between two teams, none a self-game, list exactly
      those two teams: the first game's home team, then its away team. */
  lemma TeamsOfPairGames(gs: seq<Game>, a: int, b: int)
    requires |gs| > 0
    requires NoSelfGames(gs)
    requires forall t :: Appears(gs, t) ==> t == a || t == b
    ensures Teams(gs) == [gs[0].homeTeamId, gs[0].awayTeamId]
  {
    var teams := Teams(gs);
    var g := gs[0];
    assert g.homeTeamId != g.awayTeamId;
    assert Involves(gs[0], g.homeTeamId) && Involves(gs[0], g.awayTeamId);
    TeamsAreAppearances(gs, g.awayTeamId);
    forall i | 0 <= i < |teams|
      ensures teams[i] == a || teams[i] == b
    {
      assert teams[i] in teams;
      TeamsAreAppearances(gs, teams[i]);
    }
    AtMostTwoDistinct(teams, a, b);
    FirstTeamIsFirstHome(gs);
    var ib :| 0 <= ib < |teams| && teams[ib] == g.awayTeamId;
    assert ib == 1;
  }

  /** The head-to-head aggregate of a tied pair, when there is any
      head-to-head game and no self-game, has one standing for each of the
      two teams: the first head-to-head game's home team, then its away team. */
  lemma HeadToHeadCoversPair(group: seq<Standing>, games: seq<Game>)
    requires |group| == 2 && group[0].team != group[1].team
    requires NoSelfGames(games)
    requires |HeadToHeadGames(games, [group[0].team, group[1].team])| > 0
    ensures var h2hGames := HeadToHeadGames(games, [group[0].team, group[1].team]);
      var h2h := GetStandings(h2hGames);
      |h2h| == 2
      && h2h[0].team == h2hGames[0].homeTeamId
      && h2h[1].team == h2hGames[0].awayTeamId
      && h2h[0].team != h2h[1].team
  {
    var a, b := group[0].team, group[1].team;
    var h2hGames := HeadToHeadGames(games, [a, b]);
    HeadToHeadNoSelfGames(games, [a, b]);
    forall t | Appears(h2hGames, t)
      ensures t == a || t == b
    {
      HeadToHeadGamesAreBetween(games, [a, b], t);
    }
    TeamsOfPairGames(h2hGames, a, b);
  }

  lemma {:induction false} HeadToHeadNoSelfGames(games: seq<Game>, teams: seq<int>)
    requires NoSelfGames(games)
    ensures NoSelfGames(HeadToHeadGames(games, teams))
    decreases |games|
  {
    if |games| > 0 {
      HeadToHeadNoSelfGames(games[1..], teams);
      var head := if games[0].homeTeamId in teams && games[0].awayTeamId in teams then [games[0]] else [];
      var h := HeadToHeadGames(games, teams);
      assert h == head + HeadToHeadGames(games[1..], teams);
      forall i | 0 <= i < |h|
        ensures h[i].homeTeamId != h[i].awayTeamId
      {
        if i >= |head| {
          assert h[i] == HeadToHeadGames(games[1..], teams)[i - |head|];
        } else {
          assert h[i] == games[0];
        }
      }
    }
  }

  /** A two-element sequence with two different members that is a
      permutation of another has the same two members, in some order. */
  lemma PairPermutation(p: seq<Standing>, q: seq<Standing>)
    requires |p| == 2 && p[0] != p[1]
    requires multiset(q) == multiset(p)
    ensures q == p || q == [p[1], p[0]]
  {
    assert |q| == |multiset(q)| == 2;
    assert q == [q[0], q[1]] && p == [p[0], p[1]];
    assert multiset{q[0], q[1]} == multiset{p[0], p[1]};
    assert multiset{p[0], p[1]}[p[0]] == 1 && multiset{p[0], p[1]}[p[1]] == 1;
  }

  /** The pair a tied two-team group is resolved on holds one standing for
      each of the two teams; it is the group itself only when no game at
      all, counted or not, was played between them. */
  lemma HeadToHeadPairShape(group: seq<Standing>, games: seq<Game>)
    requires |group| == 2 && group[0].team != group[1].team
    requires NoSelfGames(games)
    ensures var pair := HeadToHeadPair(group, games);
      |pair| == 2 && pair[0].team != pair[1].team
    ensures var h2hGames := HeadToHeadGames(games, [group[0].team, group[1].team]);
      HeadToHeadPair(group, games) == if |h2hGames| == 0 then group else GetStandings(h2hGames)
  {
    var h2hGames := HeadToHeadGames(games, [group[0].team, group[1].team]);
    var h2h := GetStandings(h2hGames);
    if |h2hGames| > 0 {
      HeadToHeadCoversPair(group, games);
      assert HeadToHeadPair(group, games) == h2h;
    } else {
      EmptyIffNoGames(h2hGames);
    }
  }

  /** Mapping a resolved order of the pair's two teams back to full-season
      standings yields the group's two standings in that order. */
  lemma MapBackPair(order: seq<Standing>, group: seq<Standing>, standings: seq<Standing>)
    requires |order| == 2 && order[0].team != order[1].team
    requires |group| == 2 && group[0] in standings && group[1] in standings
    requires UniqueTeams(standings)
    requires forall x :: x in order ==> x.team == group[0].team || x.team == group[1].team
    ensures forall h :: h in order ==> Lookup(standings, h.team).Some?
    ensures var r := MapBack(order, standings);
      r[0].team == order[0].team && r[1].team == order[1].team
      && (r == group || r == [group[1], group[0]])
  {
    LookupFindsListed(standings, group[0]);
    LookupFindsListed(standings, group[1]);
    assert order[0] in order && order[1] in order;
    var r := MapBack(order, standings);
    if r[0].team == group[0].team {
      SameTeamSameStanding(standings, r[0], group[0]);
      SameTeamSameStanding(standings, r[1], group[1]);
    } else {
      SameTeamSameStanding(standings, r[0], group[1]);
      SameTeamSameStanding(standings, r[1], group[0]);
    }
  }

  /** The resolved order of a tied pair of two different teams holds one
      standing for each of the two teams. */
  lemma PairOrder(group: seq<Standing>, games: seq<Game>)
    requires |group| == 2 && group[0].team != group[1].team
    requires NoSelfGames(games)
    ensures var order := LastSort(HeadToHeadPair(group, games));
      |order| == 2 && order[0].team != order[1].team
      && forall x :: x in order ==> x.team == group[0].team || x.team == group[1].team
  {
    HeadToHeadPairShape(group, games);
    var pair := HeadToHeadPair(group, games);
    var order := LastSort(pair);
    PairPermutation(pair, order);
  }

  /** A tied pair is ordered by `LastSort` over the pair's head-to-head
      aggregate, or over the pair itself when the two never met. The
      emitted standings are the pair's own full-season standings, in the
      resolved order. */
  lemma PairResolution(group: seq<Standing>, standings: seq<Standing>, games: seq<Game>)
    requires |group| == 2
    requires multiset(group) <= multiset(standings)
    requires UniqueTeams(standings)
    requires NoSelfGames(games)
    ensures group[0] in standings && group[1] in standings
    ensures var order := LastSort(HeadToHeadPair(group, games));
      var r := ResolvePair(group, standings, games);
      |order| == 2
      && r[0].team == order[0].team && r[1].team == order[1].team
      && (r == group || r == [group[1], group[0]])
  {
    PairMembersDiffer(group, standings);
    PairOrder(group, games);
    var order := LastSort(HeadToHeadPair(group, games));
    MapBackPair(order, group, standings);
  }

  /** A group of two is resolved as a pair. */
  lemma GroupOfTwo(group: seq<Standing>, standings: seq<Standing>, games: seq<Game>)
    requires |group| == 2
    requires forall x :: x in group ==> x in standings
    ensures group[0] in standings && group[1] in standings
    ensures ResolveGroup(group, standings, games) == ResolvePair(group, standings, games)
  {
    assert group[0] in group && group[1] in group;
  }

  /** When the two teams of a tied pair met only in games excluded from
      standings, the head-to-head aggregate still exists, but every record
      in it is empty: `LastSort` then leaves the pair in the order of the
      first such game, home team first, and the group itself is never used. */
  lemma UncountedMeetingsKeepFirstMeetingOrder(group: seq<Standing>, games: seq<Game>)
    requires |group| == 2 && group[0].team != group[1].team
    requires NoSelfGames(games)
    requires var h := HeadToHeadGames(games, [group[0].team, group[1].team]);
      |h| > 0 && forall i :: 0 <= i < |h| ==> !h[i].includeInStandings
    ensures var h := HeadToHeadGames(games, [group[0].team, group[1].team]);
      var order := LastSort(HeadToHeadPair(group, games));
      |order| == 2 && order[0].team == h[0].homeTeamId && order[1].team == h[0].awayTeamId
  {
    var h := HeadToHeadGames(games, [group[0].team, group[1].team]);
    var h2h := GetStandings(h);
    HeadToHeadCoversPair(group, games);
    HeadToHeadPairShape(group, games);
    forall x | x in h2h
      ensures x == Zero(x.team)
    {
      NoCountedGamesGivesZero(h, x.team);
    }
    forall x | x in h2h
      ensures LastSortKey(h2h)(x) == Key(0, 0, 0)
    {
      var o := Lookup(h2h, x.team);
      assert o.Some? && o.value in h2h;
    }
    SortByAllTied(h2h, LastSortKey(h2h), Key(0, 0, 0));
  }

  /** Why the lemmas above exclude games a team plays against itself: if
      the only game between two tied teams is listed as a team playing
      itself, the head-to-head aggregate names one team only, and the
      resolved pair loses a standing. */
  lemma SelfGameShrinksPair()
    ensures var group := [Zero(1), Zero(2)];
      var games := [Game(1, 1, false, None, true, [])];
      |ResolvePair(group, group, games)| == 1
  {
    var group := [Zero(1), Zero(2)];
    var games := [Game(1, 1, false, None, true, [])];
    var h := HeadToHeadGames(games, [1, 2]);
    assert h == games;
    OnlyTeamListed(h, 1);
  }

  lemma OnlyTeamListed(games: seq<Game>, t: int)
    requires |games| > 0
    requires forall i :: 0 <= i < |games| ==> games[i].homeTeamId == t && games[i].awayTeamId == t
    ensures |Teams(games)| == 1
  {
    var teams := Teams(games);
    FirstTeamIsFirstHome(games);
    forall i | 0 <= i < |teams|
      ensures teams[i] == t
    {
      TeamsAreAppearances(games, teams[i]);
    }
    AtMostOneDistinct(teams, t);
  }

  lemma AtMostOneDistinct(s: seq<int>, t: int)
    requires NoDuplicates(s)
    requires forall i :: 0 <= i < |s| ==> s[i] == t
    ensures |s| <= 1
  {
    if |s| > 1 {
      FirstTwoDiffer(s);
      assert false;
    }
  }

  lemma FirstTwoDiffer(s: seq<int>)
    requires NoDuplicates(s) && |s| > 1
    ensures s[0] != s[1]
  {
  }
}

=== FILE: wrappers.dfy ===
/** The optional value used for C#'s nullable `int?` and for lookups that may miss. */
module Wrappers {

  datatype Option<+T> = None | Some(value: T)
}
